=== FILE: README.md ===
# Product catalogue API: validators and persistence mapper

This project is a Dafny model of the functional core of a serverless CRUD API
for a coffee-shop product catalogue. It has three parts:

- **Input validators** (`src/utils/validation.ts`). They turn an untyped JSON
  request body into a validated create or update request, or into a
  `ValidationError`. The error names one of the source's messages, and
  `Validation.MessageText` gives that message's exact text.
- **Persistence mapper** (`ProductService` in `src/utils/dynamodb.ts`). It
  implements `create`, `getById`, `getAll`, `update`, `delete` and
  `generateId` over a products table. The table is modelled as a
  `map<string, Product>` keyed by id.
- **Domain model** (`src/models/Product.ts`). It defines the product records
  and the closed set of eight categories.

Modules, one file each:

| module | file | what it models |
|---|---|---|
| `Wrappers` | wrappers.dfy | `Option` |
| `JsText` | js_text.dfy | the JavaScript string operations the core uses: `trim`, `${n}` for a non-negative integer, `join`, `substr` |
| `Json` | json.dfy | an untyped request body: truthiness, `typeof`, property reads, `Object.keys(..).length` |
| `ProductModel` | product.dfy | `Product`, `CreateProductRequest`, `UpdateProductRequest`, `ProductCategory` |
| `Validation` | validation.dfy | the three validators, with `ValidationError` as the `Err` side of a `Result` |
| `DocumentStore` | document_store.dfy | the semantics the mapper relies on: items as attribute maps; a `SET` update with `ExpressionAttributeNames` / `ExpressionAttributeValues`; when the store accepts it and what it writes |
| `UpdateBuilder` | update_builder.dfy | the `forEach` that builds `#attrI = :valI` clauses from `Object.entries`, plus the unconditional `#updatedAt = :updatedAt` clause |
| `ProductService` | product_service.dfy | the five table operations and `generateId` |

### How an update is modelled

`update` is modelled along the same path the store takes:

1. The stored product is encoded as the item that `put` wrote.
2. The `SET` request that `update` builds is applied to that item.
3. The resulting attributes are read back as a product.

The entries of the update object are its supplied fields in the order the
validator assigns them: name, description, price, category, available.
`UpdateBuilder` itself works on any entry list, including entries whose
value is `undefined`. Those entries get no clause but still use up an index.

`ProductService.Merge` is an independent field-by-field reference: each
supplied field replaces the stored one, and `updatedAt` becomes `now`. The
lemma `ProductService.UpdateMatchesMerge` proves that the store path always
succeeds for a stored id and produces exactly `Merge`. So `id`, `createdAt`
and every unsupplied field are preserved.

### Induction

Every lemma carries `{:induction false}` and makes its induction explicit
with recursive calls.

### Two details of the validators

- **Create with a whitespace-only name or description.** `validateCreateProductRequest`
  tests `!name` before it trims (`src/utils/validation.ts:17`), so a name of
  `"   "` passes and is stored as `""`. `validateUpdateProductRequest` trims
  first and then rejects the empty result (`src/utils/validation.ts:59-62`).
  The model keeps both behaviours; `Validation.BlankNameAcceptedOnlyByCreate`
  proves the difference.
- **`validateProductId` input type.** The TypeScript signature types the id as
  a string, but the function body also guards `typeof id !== 'string'`. The
  model takes an arbitrary JSON value so that this guard is modelled too.

## Model

| member | source | states |
|---|---|---|
| JsText.Trim | src/utils/validation.ts:42-43 | the trimmed text has no whitespace at either end; it is empty exactly when the input is all whitespace |
| JsText.TrimIsSlice | src/utils/validation.ts:42-43 | trimming removes only whitespace, and only from the two ends: the result is a slice of the input with nothing but whitespace before and after it |
| JsText.TrimIdempotent | src/utils/validation.ts:96-101 | trimming a trimmed text changes nothing |
| JsText.NatToString | src/utils/dynamodb.ts:61-62 | the decimal text of an index is non-empty and all digits |
| JsText.ParseNatToString | src/utils/dynamodb.ts:61-62 | reading the decimal text back gives the number, so parsing undoes the rendering |
| JsText.NatToStringInjective | src/utils/dynamodb.ts:61-62 | different indices give different decimal texts |
| JsText.Join | src/utils/dynamodb.ts:78 | joining one part gives that part; a join starts with its first part and ends with its last |
| JsText.JoinSnoc | src/utils/dynamodb.ts:78 | joining one more part appends the separator and that part, so a join is every part in order with the separator between neighbours |
| JsText.JoinEight | src/utils/validation.ts:34 | eight parts joined are the eight parts in order with the separator between each neighbouring pair |
| JsText.Substr | src/utils/dynamodb.ts:105 | `substr(start, length)` is the text from `start` cut to `length` characters: a prefix of the text from `start` whose length is the smaller of `length` and what remains, and empty past the end |
| Json.Truthy | src/utils/validation.ts:11 | a body is falsy exactly when it is `null`, `false`, `0` or `""`; every array and object is truthy (the same test is made at lines 51 and 97) |
| Json.HasKeys | src/utils/validation.ts:51 | for a non-`null` value, `Object.keys(data).length` is non-zero exactly for an object with a key, a non-empty array or a non-empty string, and zero for booleans and numbers; `null` never reaches it because `!data` is tested first |
| Json.TypeOf | src/utils/validation.ts:17-39 | `typeof` is "undefined", "string", "number" or "boolean" exactly for a missing property, a string, a number or a boolean |
| Json.Get | src/utils/validation.ts:15 | for a non-`null` body, a destructured property is present exactly when the body is an object that has that key; destructuring `null` throws, and both validators test `!data` before it |
| ProductModel.CategoriesDistinct | src/models/Product.ts:28-37 | there are exactly eight category values, and they are pairwise distinct |
| ProductModel.CategoryValuesAreLabels | src/models/Product.ts:28-37 | the value list holds each member's value in declaration order, so every member's value is a category |
| Validation.MessageText | src/utils/validation.ts:12-98 | the text of each error the validators throw, including the category message that joins the eight values with ", " |
| Validation.MessageOfText | src/utils/validation.ts:12-98 | each message's text can be read back to the message it came from |
| Validation.MessageTextInjective | src/utils/validation.ts:12-98 | different errors have different texts, so the text a client receives names the check that failed |
| Validation.CategoryMessageText | src/utils/validation.ts:34 | the membership message is "Category must be one of: " followed by espresso, coffee, latte, cappuccino, frappuccino, tea, pastry and sandwich, in that order, separated by ", " |
| Validation.RequiredString | src/utils/validation.ts:17-23 | the create rule for name/description accepts exactly a present non-empty string, returns it untrimmed, and fails with the given message otherwise |
| Validation.RequiredPrice | src/utils/validation.ts:25-27 | price is accepted exactly when it is a number >= 0 (zero included); otherwise the "positive number" message |
| Validation.Member | src/utils/validation.ts:33-35 | a category string is accepted exactly when it is one of the eight values; otherwise the message that lists all eight |
| Validation.OptionalBool | src/utils/validation.ts:37-39 | `available` passes when absent (and stays unset) or when a boolean; `null` or any other value fails with "Available must be a boolean" |
| Validation.OptionalText | src/utils/validation.ts:58-70 | an update's name/description passes when absent, or when a string whose trimmed text is non-empty; the result is that trimmed text |
| Validation.OptionalPrice | src/utils/validation.ts:72-77 | an update's price passes when absent or when a number >= 0, and is copied unchanged |
| Validation.OptionalCategory | src/utils/validation.ts:79-84 | an update's category passes when absent or when a string in the category set, and is copied unchanged |
| Validation.ValidateCreateProductRequest | src/utils/validation.ts:10-48 | succeeds exactly when the body is truthy, name and description are non-empty strings, price is a number >= 0, category is a string in the set, and `available` is absent or boolean; the result has trimmed name and description, the other fields copied, and `available` unset when absent |
| Validation.CreateErrorMessages | src/utils/validation.ts:11-39 | the first failing rule decides the error, in source order: body, name, description, price, category, membership, available |
| Validation.ValidateUpdateProductRequest | src/utils/validation.ts:50-94 | succeeds exactly when the body is truthy, has at least one key, and every recognised field present passes its rule; the result holds exactly the recognised fields present, with name/description trimmed and non-empty |
| Validation.UpdateNullAndUnknownKeys | src/utils/validation.ts:51-93 | an explicit `null` in a recognised field is rejected, not dropped; a body with keys but no recognised field yields the empty request |
| Validation.UpdateErrorMessages | src/utils/validation.ts:51-91 | the first failing rule decides the error, in source order: at least one key, name, description, price, category, available |
| Validation.ValidateProductId | src/utils/validation.ts:96-101 | succeeds exactly on a string that is not all whitespace and returns its trimmed text, which is non-empty |
| Validation.ProductIdIdempotent | src/utils/validation.ts:96-101 | validating an id that has already been validated returns the same id |
| Validation.UpdateRequestBody | src/models/Product.ts:20-26 | the JSON form of an update request is an object with no key beyond the five fields, holding exactly the present fields with their values |
| Validation.UpdateRequestBodyKeys | src/utils/validation.ts:51-53 | that JSON body has a key exactly when the request is not empty |
| Validation.CreateRoundTrip | src/utils/validation.ts:10-48 | a valid create request with non-empty name and description, sent as JSON, validates back to itself |
| Validation.UpdateRoundTrip | src/utils/validation.ts:50-94 | a non-empty valid update request validates back to itself; the empty one is refused with "At least one field is required for update" |
| Validation.UpdateRevalidates | src/utils/validation.ts:50-94 | update validation is idempotent on its own non-empty results |
| Validation.BlankNameAcceptedOnlyByCreate | src/utils/validation.ts:17-62 | a whitespace-only name passes create and becomes "", the same body fails update with "Name must be a non-empty string", and the created request does not validate again |
| DocumentStore.Assign | src/utils/dynamodb.ts:78-84 | running `SET` clauses keeps all existing attributes |
| DocumentStore.AssignFrame | src/utils/dynamodb.ts:78-84 | an attribute that no clause targets keeps its value |
| DocumentStore.AssignDefines | src/utils/dynamodb.ts:78-84 | every attribute a clause targets is defined afterwards |
| DocumentStore.AssignAgree | src/utils/dynamodb.ts:78-84 | the outcome of the first n clauses depends only on those clauses |
| DocumentStore.Apply | src/utils/dynamodb.ts:75-85 | the store accepts a request exactly when it is well formed (placeholders defined and used, no attribute set twice, key not set); it then keeps every attribute and the key's value |
| DocumentStore.Render | src/utils/dynamodb.ts:78 | the `UpdateExpression` text starts with "SET " and ends with the text of its last clause; with one clause it is "SET " and that clause |
| DocumentStore.RenderSnoc | src/utils/dynamodb.ts:78 | one more clause appends ", " and its text, so the expression carries every clause in order, separated by ", " |
| UpdateBuilder.AttrName | src/utils/dynamodb.ts:61 | a name placeholder starts with `#attr` |
| UpdateBuilder.ValueName | src/utils/dynamodb.ts:62 | a value placeholder starts with `:val` |
| UpdateBuilder.PlaceholderIndex | src/utils/dynamodb.ts:61-62 | after its prefix a placeholder is all decimal digits, and they read back as the entry's index |
| UpdateBuilder.PlaceholdersInjective | src/utils/dynamodb.ts:61-62 | `#attrI` and `:valI` built from different indices differ |
| UpdateBuilder.PlaceholdersAvoidUpdatedAt | src/utils/dynamodb.ts:61-72 | no indexed placeholder equals `#updatedAt` or `:updatedAt` |
| UpdateBuilder.Positions | src/utils/dynamodb.ts:59-60 | the positions of defined entries: increasing, in range, and complete |
| UpdateBuilder.Build | src/utils/dynamodb.ts:59-68 | every placeholder a built clause uses is defined, and every placeholder index is below the number of entries seen |
| UpdateBuilder.BuildNames | src/utils/dynamodb.ts:61-65 | `#attrk` is defined exactly for defined entries k and maps to entry k's key |
| UpdateBuilder.BuildValues | src/utils/dynamodb.ts:62-66 | `:valk` is defined exactly for defined entries k and maps to entry k's value |
| UpdateBuilder.BuildClauses | src/utils/dynamodb.ts:59-64 | the clauses are `#attrk = :valk` for the defined positions k, in order; undefined entries get no clause |
| UpdateBuilder.BuildUsesAllNames | src/utils/dynamodb.ts:59-68 | every name placeholder built is used by a clause |
| UpdateBuilder.BuildUsesAllValues | src/utils/dynamodb.ts:59-68 | every value placeholder built is used by a clause |
| UpdateBuilder.PlaceholderNamesDistinct | src/utils/dynamodb.ts:59-72 | the placeholders of different clauses differ, and none equals the `updatedAt` ones |
| UpdateBuilder.Changes | src/utils/dynamodb.ts:59-68 | the attribute changes the entries ask for include every defined entry's key |
| UpdateBuilder.ChangesConcat | src/utils/dynamodb.ts:59-68 | the changes of a concatenation are the left part's changes overridden by the right part's |
| UpdateBuilder.AssignBuild | src/utils/dynamodb.ts:59-84 | running the built clauses under any extension of their placeholder maps writes exactly the requested changes over the item |
| UpdateBuilder.AssignBuildStep | src/utils/dynamodb.ts:59-66 | one more entry adds, through its clause, exactly the change it asks for |
| UpdateBuilder.BuildUpdate | src/utils/dynamodb.ts:70-73 | the last clause is always `#updatedAt = :updatedAt`, with `#updatedAt` naming `updatedAt` and `:updatedAt` holding `now` |
| UpdateBuilder.BuildUpdateExtends | src/utils/dynamodb.ts:70-73 | the whole request extends the indexed clauses and their placeholder maps by exactly the `updatedAt` clause |
| UpdateBuilder.BuildUpdateTargets | src/utils/dynamodb.ts:59-73 | clause i targets the key of the i-th defined entry, and the last clause targets `updatedAt` |
| UpdateBuilder.BuildUpdateUsesNames | src/utils/dynamodb.ts:59-79 | every name placeholder sent is used by the update expression |
| UpdateBuilder.BuildUpdateUsesValues | src/utils/dynamodb.ts:59-80 | every value placeholder sent is used by the update expression |
| UpdateBuilder.BuildUpdateWellFormed | src/utils/dynamodb.ts:75-84 | with distinct keys that are neither `id` nor `updatedAt`, the store accepts the request |
| UpdateBuilder.ApplyBuild | src/utils/dynamodb.ts:75-85 | applying the request writes exactly the defined entries and `updatedAt := now` over the item; every other attribute is unchanged |
| UpdateBuilder.ApplyBuildRejects | src/utils/dynamodb.ts:75-84 | a defined entry for `id` or `updatedAt` makes the store reject the whole request |
| UpdateBuilder.RenderEndsWithStamp | src/utils/dynamodb.ts:71-78 | the rendered update expression always ends with `#updatedAt = :updatedAt` |
| ProductService.GenerateId | src/utils/dynamodb.ts:104-106 | every generated id starts with `product_` and its length is bounded by the digit count of the clock reading plus 18 |
| ProductService.GenerateIdInjective | src/utils/dynamodb.ts:104-106 | two ids are equal exactly when the clock readings are equal and the random parts used agree |
| ProductService.ToItem | src/utils/dynamodb.ts:18-23 | the item written for a product has exactly the eight product attributes, with `id` as key |
| ProductService.FromItem | src/utils/dynamodb.ts:84-85 | a product read back from an item has every one of its attributes present in the item with the same value |
| ProductService.ItemRoundTrip | src/utils/dynamodb.ts:18-35 | reading back the item written for a product gives the product |
| ProductService.Create | src/utils/dynamodb.ts:8-25 | the new product has the generated `product_` id, the request's name, description, price and category, `available` defaulting to true, and both timestamps equal to `now`; the put stores it under its id and leaves every other id as it was |
| ProductService.GetById | src/utils/dynamodb.ts:27-35 | returns a product exactly when the id is stored, and then the stored product |
| ProductService.GetAll | src/utils/dynamodb.ts:37-44 | returns one product per stored id: the ids in some order without repeats, covering the table, and position i holds the product stored under the i-th id (so an empty table gives an empty sequence) |
| ProductService.RequestEntries | src/utils/dynamodb.ts:59-60 | the entries of a validated update object are the present fields only, so every value is defined |
| ProductService.RequestEntriesAcceptable | src/models/Product.ts:20-26 | a validated update's entries have distinct keys and never name `id` or `updatedAt`, so the store accepts its request |
| ProductService.RequestEntriesChanges | src/utils/dynamodb.ts:59-68 | the changes an update asks for are one attribute per supplied field |
| ProductService.WriteFields | src/utils/dynamodb.ts:59-68 | writing the supplied fields over a product's item gives the item of the field-by-field merge |
| ProductService.MergeItem | src/utils/dynamodb.ts:59-85 | writing the supplied fields and `updatedAt := now` over a product's item gives the item of `Merge` |
| ProductService.UpdateItem | src/utils/dynamodb.ts:53-85 | the store's result of the built request on a stored product's item is exactly the item of `Merge` |
| ProductService.Update | src/utils/dynamodb.ts:46-86 | reports not-found exactly when the id is absent; without a successful update the table is unchanged; otherwise only that id is rewritten |
| ProductService.UpdateMatchesMerge | src/utils/dynamodb.ts:46-86 | updating a stored id always succeeds and stores and returns the merge: supplied fields replaced, `updatedAt := now`, `id`, `createdAt` and unsupplied fields kept |
| ProductService.Delete | src/utils/dynamodb.ts:88-102 | returns true exactly when the id is stored; removes exactly that id and keeps every other product |
| ProductService.CreatePreservesInvariant | src/utils/dynamodb.ts:8-25 | creating from a validated request keeps every product filed under its own `product_` id with valid fields |
| ProductService.UpdatePreservesInvariant | src/utils/dynamodb.ts:46-86 | updating with a validated request keeps that invariant |
| ProductService.DeletePreservesInvariant | src/utils/dynamodb.ts:88-102 | deleting keeps that invariant |
| ProductService.CreateThenGet | src/utils/dynamodb.ts:8-35 | a created product is read back by its id and carries the request's fields, the `available` default and `now` stamps; other ids read as before |
| ProductService.UpdateThenGet | src/utils/dynamodb.ts:27-86 | after updating a stored id it reads as the merge; other ids read as before |
| ProductService.DeleteThenGet | src/utils/dynamodb.ts:27-102 | after a delete the id reads as absent; other ids read as before |

## Left out

- AWS SDK `DocumentClient` calls and the `PRODUCTS_TABLE` name: the table is a value of type `map<string, Product>`, and each operation returns the new table. The remote store is a foreign call.
- `Date.now()`, `new Date().toISOString()` and `Math.random().toString(36)`: these are parameters (`millis`, `now`, `random36`). Timestamp formatting is not modelled, and nothing about the order of `createdAt` and `updatedAt` is claimed.
- The HTTP handlers under `src/handlers/` and `src/models/ApiResponse.ts`: these do JSON parsing, logging, status codes and CORS headers.
- IEEE-754 detail of `price`: numbers are reals, and NaN and infinities are not modelled.
- The check-then-write race in `update` and `delete`: each operation is modelled as atomic.
- Read consistency: `get` and `scan` (`src/utils/dynamodb.ts:28-33`, `38-42`) set no `ConsistentRead`, so the store serves them eventually consistent and a read may miss a recent write. The single map gives read-after-write instead. `CreateThenGet`, `UpdateThenGet`, the existence checks in `update` and `delete` (`src/utils/dynamodb.ts:48-51`, `90-93`), and the exact contents of `GetAll` all depend on that.
- Strings are sequences of Unicode scalar values, not UTF-16 code units. A lone surrogate, which `JSON.parse` produces from an escape such as `"\ud800"`, cannot be represented.
- Scan pagination in `getAll`: a single `scan` page may be truncated at 1 MB; the model returns the whole table.
- ProductService.GetAll: the order of the ids is not stated, because a scan's order is unspecified; the ids are a ghost out-parameter, as the scan does not return them.
- JsText.Trim: whitespace is the explicit list of ECMAScript white-space and line-terminator characters; full Unicode category data is not modelled.
- Parts of the store's update semantics that the mapper never reaches: the `REMOVE`, `ADD` and `DELETE` actions, condition expressions, size limits and reserved-word checks.
- ProductService.Update: the `Rejected` outcome (the store refusing the request, or returning attributes that do not read back as a product) is modelled but never happens for a stored id. `ProductService.UpdateMatchesMerge` shows this.
- The `ValidationError` class's `name` property: an error is represented by its message only.
- Tests under `tests/`: they exercise a deployed API or mocks of the SDK.

=== FILE: document_store.dfy ===
/** The slice of the document store's semantics the persistence mapper
    relies on: items as attribute maps, and an update request made of a
    `SET` action, `ExpressionAttributeNames` and `ExpressionAttributeValues`.
    The store itself is remote; this module fixes what a partial update does
    to one item so that the mapper's requests can be reasoned about. */
module DocumentStore {
  import opened Wrappers
  import opened JsText

  /** The attribute types a product uses: text, number and boolean. */
  datatype AttrValue = StringAttr(s: string) | NumberAttr(n: real) | BoolAttr(b: bool)

  /** A stored item: attribute name to value. */
  type Item = map<string, AttrValue>

  /** The table's partition key, which an update may not assign. */
  const KeyAttribute := "id"

  /** One `#name = :value` clause of a `SET` action: two placeholder tokens. */
  datatype Clause = Clause(name: string, value: string)

  /** A partial update: the `SET` clauses in order and the two placeholder maps. */
  datatype UpdateExpression = UpdateExpression(
    clauses: seq<Clause>,
    names: map<string, string>,
    values: map<string, AttrValue>)

  /** Every placeholder a clause uses is defined. */
  predicate Resolves(cs: seq<Clause>, names: map<string, string>, values: map<string, AttrValue>) {
    forall i :: 0 <= i < |cs| ==> cs[i].name in names && cs[i].value in values
  }

  /** The name-placeholders of the clauses, in order. */
  function NameTokens(cs: seq<Clause>): (r: seq<string>)
    ensures |r| == |cs|
    ensures forall i :: 0 <= i < |cs| ==> r[i] == cs[i].name
  {
    seq(|cs|, i requires 0 <= i < |cs| => cs[i].name)
  }

  /** The value-placeholders of the clauses, in order. */
  function ValueTokens(cs: seq<Clause>): (r: seq<string>)
    ensures |r| == |cs|
    ensures forall i :: 0 <= i < |cs| ==> r[i] == cs[i].value
  {
    seq(|cs|, i requires 0 <= i < |cs| => cs[i].value)
  }

  /** The attributes the clauses assign, in order. */
  function Targets(cs: seq<Clause>, names: map<string, string>, values: map<string, AttrValue>): (r: seq<string>)
    requires Resolves(cs, names, values)
    ensures |r| == |cs|
    ensures forall i :: 0 <= i < |cs| ==> r[i] == names[cs[i].name]
  {
    seq(|cs|, i requires 0 <= i < |cs| => names[cs[i].name])
  }

  predicate Distinct(s: seq<string>) {
    forall i, j :: 0 <= i < j < |s| ==> s[i] != s[j]
  }

  /** Every name placeholder is used by some clause. */
  predicate NamesUsed(e: UpdateExpression) {
    forall n :: n in e.names ==> n in NameTokens(e.clauses)
  }

  /** Every value placeholder is used by some clause. */
  predicate ValuesUsed(e: UpdateExpression) {
    forall v :: v in e.values ==> v in ValueTokens(e.clauses)
  }

  /** The checks the store applies before it runs an update: every placeholder
      is defined and used, no attribute is assigned twice, and the key is not
      assigned. */
  predicate WellFormed(e: UpdateExpression) {
    && Resolves(e.clauses, e.names, e.values)
    && NamesUsed(e)
    && ValuesUsed(e)
    && Distinct(Targets(e.clauses, e.names, e.values))
    && KeyAttribute !in Targets(e.clauses, e.names, e.values)
  }

  /** Runs the first `n` clauses left to right, each overwriting (or adding) one attribute. */
  function Assign(item: Item, cs: seq<Clause>, n: nat, names: map<string, string>, values: map<string, AttrValue>): (r: Item)
    requires n <= |cs| && Resolves(cs, names, values)
    ensures item.Keys <= r.Keys
    decreases n
  {
    if n == 0 then item
    else Assign(item, cs, n - 1, names, values)[names[cs[n - 1].name] := values[cs[n - 1].value]]
  }

  /** An attribute that no clause targets keeps its value. */
  lemma {:induction false} AssignFrame(item: Item, cs: seq<Clause>, n: nat, names: map<string, string>, values: map<string, AttrValue>)
    requires n <= |cs| && Resolves(cs, names, values)
    ensures forall k :: k in item && k !in Targets(cs, names, values) ==> Assign(item, cs, n, names, values)[k] == item[k]
    decreases n
  {
    if n > 0 {
      AssignFrame(item, cs, n - 1, names, values);
      assert Targets(cs, names, values)[n - 1] == names[cs[n - 1].name];
    }
  }

  /** Every attribute a clause targets is defined afterwards. */
  lemma {:induction false} AssignDefines(item: Item, cs: seq<Clause>, n: nat, names: map<string, string>, values: map<string, AttrValue>)
    requires n <= |cs| && Resolves(cs, names, values)
    ensures forall j :: 0 <= j < n ==> names[cs[j].name] in Assign(item, cs, n, names, values)
    decreases n
  {
    if n > 0 {
      AssignDefines(item, cs, n - 1, names, values);
    }
  }

  /** Only the first `n` clauses matter to `Assign`. */
  lemma {:induction false} AssignAgree(item: Item, cs: seq<Clause>, ds: seq<Clause>, n: nat,
                                       names: map<string, string>, values: map<string, AttrValue>)
    requires n <= |cs| && n <= |ds|
    requires Resolves(cs, names, values) && Resolves(ds, names, values)
    requires forall j :: 0 <= j < n ==> cs[j] == ds[j]
    ensures Assign(item, cs, n, names, values) == Assign(item, ds, n, names, values)
    decreases n
  {
    if n > 0 {
      AssignAgree(item, cs, ds, n - 1, names, values);
    }
  }

  /** One more clause overwrites (or adds) one attribute after the others have run. */
  lemma {:induction false} AssignStep(item: Item, cs: seq<Clause>, c: Clause, names: map<string, string>, values: map<string, AttrValue>)
    requires Resolves(cs + [c], names, values)
    ensures Resolves(cs, names, values)
    ensures c.name in names && c.value in values
    ensures Assign(item, cs + [c], |cs| + 1, names, values)
            == Assign(item, cs, |cs|, names, values)[names[c.name] := values[c.value]]
  {
    assert (cs + [c])[|cs|] == c;
    assert forall i :: 0 <= i < |cs| ==> (cs + [c])[i] == cs[i];
    AssignAgree(item, cs + [c], cs, |cs|, names, values);
  }

  /** The item after a partial update, or `None` when the store rejects the request. */
  function Apply(item: Item, e: UpdateExpression): (r: Option<Item>)
    ensures r.Some? <==> WellFormed(e)
    ensures r.Some? ==> item.Keys <= r.value.Keys
    ensures r.Some? && KeyAttribute in item ==> r.value[KeyAttribute] == item[KeyAttribute]
  {
    if WellFormed(e) then
      AssignFrame(item, e.clauses, |e.clauses|, e.names, e.values);
      Some(Assign(item, e.clauses, |e.clauses|, e.names, e.values))
    else None
  }

  /** The text of one clause. */
  function ClauseText(c: Clause): string {
    c.name + " = " + c.value
  }

  /** The `UpdateExpression` text: "SET " and the clauses joined by ", ".
      It starts with the action keyword and ends with the last clause. */
  function Render(e: UpdateExpression): (r: string)
    ensures "SET " <= r
    ensures |e.clauses| > 0 ==> EndsWith(r, ClauseText(e.clauses[|e.clauses| - 1]))
    ensures |e.clauses| == 1 ==> r == "SET " + ClauseText(e.clauses[0])
  {
    "SET " + Join(ClauseTexts(e.clauses), ", ")
  }

  /** The text of each clause, in order. */
  function ClauseTexts(cs: seq<Clause>): (r: seq<string>)
    ensures |r| == |cs|
    ensures forall i :: 0 <= i < |cs| ==> r[i] == ClauseText(cs[i])
  {
    seq(|cs|, i requires 0 <= i < |cs| => ClauseText(cs[i]))
  }

  /** One more clause adds ", " and its text at the end, so the rendered
      expression carries every clause, in order, separated by ", ". */
  lemma {:induction false} RenderSnoc(e: UpdateExpression, c: Clause)
    requires |e.clauses| > 0
    ensures Render(e.(clauses := e.clauses + [c])) == Render(e) + ", " + ClauseText(c)
  {
    var texts, t := ClauseTexts(e.clauses), ClauseText(c);
    var j := Join(texts, ", ");
    assert "SET " + (j + ", " + t) == "SET " + j + ", " + t;
    assert ClauseTexts(e.clauses + [c]) == texts + [t];
    JoinSnoc(texts, t, ", ");
  }
}

=== FILE: js_text.dfy ===
/** The JavaScript string primitives the validators and the persistence
    mapper rely on: `String.prototype.trim`, decimal rendering of an index
    in a template literal, `Array.prototype.join` and `String.prototype.substr`. */
module JsText {

  /** The code points ECMAScript's `trim` removes: the WhiteSpace and
      LineTerminator productions (section 12.2 and 12.3 of ECMA-262). */
  predicate IsWhitespace(c: char) {
    || c == '\t' || c == '\n' || c == '\U{000B}' || c == '\U{000C}' || c == '\r'
    || c == ' ' || c == '\U{00A0}' || c == '\U{1680}'
    || ('\U{2000}' <= c <= '\U{200A}')
    || c == '\U{2028}' || c == '\U{2029}' || c == '\U{202F}' || c == '\U{205F}'
    || c == '\U{3000}' || c == '\U{FEFF}'
  }

  predicate AllWhitespace(s: string) {
    forall k :: 0 <= k < |s| ==> IsWhitespace(s[k])
  }

  /** Neither end of `s` is whitespace: what `trim` leaves behind. */
  predicate IsTrimmed(s: string) {
    s == [] || (!IsWhitespace(s[0]) && !IsWhitespace(s[|s| - 1]))
  }

  /** The position of the first character at or after `i` that is not
      whitespace, or `|s|` when there is none. */
  function SkipLeading(s: string, i: nat): (j: nat)
    requires i <= |s|
    ensures i <= j <= |s|
    ensures forall k :: i <= k < j ==> IsWhitespace(s[k])
    ensures j < |s| ==> !IsWhitespace(s[j])
    decreases |s| - i
  {
    if i < |s| && IsWhitespace(s[i]) then SkipLeading(s, i + 1) else i
  }

  /** The end of `s[lo..j]` once its trailing whitespace is dropped. */
  function SkipTrailing(s: string, lo: nat, j: nat): (e: nat)
    requires lo <= j <= |s|
    ensures lo <= e <= j
    ensures forall k :: e <= k < j ==> IsWhitespace(s[k])
    ensures lo < e ==> !IsWhitespace(s[e - 1])
    decreases j
  {
    if lo < j && IsWhitespace(s[j - 1]) then SkipTrailing(s, lo, j - 1) else j
  }

  /** `s.trim()`: no whitespace is left at either end, and nothing is left
      exactly when `s` was all whitespace. */
  function Trim(s: string): (r: string)
    ensures IsTrimmed(r)
    ensures r == [] <==> AllWhitespace(s)
  {
    var i := SkipLeading(s, 0);
    var e := SkipTrailing(s, i, |s|);
    assert AllWhitespace(s) ==> i == |s|;
    assert e == i ==> AllWhitespace(s);
    s[i..e]
  }

  /** What `trim` removes is whitespace, and only from the two ends: the
      result is a slice of `s` with only whitespace before and after it. */
  lemma {:induction false} TrimIsSlice(s: string)
    ensures var i := SkipLeading(s, 0);
            var e := SkipTrailing(s, i, |s|);
            && Trim(s) == s[i..e]
            && AllWhitespace(s[..i]) && AllWhitespace(s[e..])
  {
    var i := SkipLeading(s, 0);
    var e := SkipTrailing(s, i, |s|);
    WhitespaceSlice(s, 0, i);
    WhitespaceSlice(s, e, |s|);
    assert s[..i] == s[0..i] && s[e..] == s[e..|s|];
  }

  lemma {:induction false} WhitespaceSlice(s: string, a: nat, b: nat)
    requires a <= b <= |s|
    requires forall k :: a <= k < b ==> IsWhitespace(s[k])
    ensures AllWhitespace(s[a..b])
  {
    assert forall k :: 0 <= k < b - a ==> s[a..b][k] == s[a + k];
  }

  /** Trimming a string that has no whitespace at either end changes nothing. */
  lemma {:induction false} TrimOfTrimmed(s: string)
    requires IsTrimmed(s)
    ensures Trim(s) == s
  {
    assert SkipLeading(s, 0) == 0;
    assert SkipTrailing(s, 0, |s|) == |s|;
    assert s[0..|s|] == s;
  }

  /** `x.trim().trim() === x.trim()`. */
  lemma {:induction false} TrimIdempotent(s: string)
    ensures Trim(Trim(s)) == Trim(s)
  {
    TrimOfTrimmed(Trim(s));
  }

  predicate IsDigit(c: char) {
    '0' <= c <= '9'
  }

  function DigitChar(d: nat): (c: char)
    requires d < 10
    ensures IsDigit(c)
  {
    "0123456789"[d]
  }

  function DigitValue(c: char): (d: nat)
    requires IsDigit(c)
    ensures d < 10 && DigitChar(d) == c
  {
    (c as int) - ('0' as int)
  }

  /** The decimal text of `n`, as `${n}` renders a non-negative integer. */
  function NatToString(n: nat): (r: string)
    ensures |r| > 0
    ensures forall k :: 0 <= k < |r| ==> IsDigit(r[k])
    decreases n
  {
    if n < 10 then [DigitChar(n)] else NatToString(n / 10) + [DigitChar(n % 10)]
  }

  predicate AllDigits(s: string) {
    forall k :: 0 <= k < |s| ==> IsDigit(s[k])
  }

  /** Reads back a string of decimal digits; the inverse of `NatToString`. */
  function ParseDecimal(s: string): nat
    requires AllDigits(s)
    decreases |s|
  {
    if |s| == 0 then 0 else ParseDecimal(s[..|s| - 1]) * 10 + DigitValue(s[|s| - 1])
  }

  lemma {:induction false} ParseNatToString(n: nat)
    ensures ParseDecimal(NatToString(n)) == n
    decreases n
  {
    var s := NatToString(n);
    if n < 10 {
      assert s[..|s| - 1] == [];
      assert DigitValue(DigitChar(n)) == n;
    } else {
      ParseNatToString(n / 10);
      assert s[..|s| - 1] == NatToString(n / 10);
      assert DigitValue(DigitChar(n % 10)) == n % 10;
    }
  }

  /** Distinct indices render to distinct decimal texts. */
  lemma {:induction false} NatToStringInjective(a: nat, b: nat)
    ensures NatToString(a) == NatToString(b) ==> a == b
  {
    ParseNatToString(a);
    ParseNatToString(b);
  }

  /** `s` has `suffix` as its last characters. */
  predicate EndsWith(s: string, suffix: string) {
    |suffix| <= |s| && s[|s| - |suffix|..] == suffix
  }

  /** `parts.join(sep)`. */
  function Join(parts: seq<string>, sep: string): (r: string)
    ensures |parts| == 1 ==> r == parts[0]
    ensures |parts| > 0 ==> parts[0] <= r
    ensures |parts| > 0 ==> EndsWith(r, parts[|parts| - 1])
    decreases |parts|
  {
    if |parts| == 0 then ""
    else if |parts| == 1 then parts[0]
    else parts[0] + sep + Join(parts[1..], sep)
  }

  /** Joining one more part appends the separator and that part, so `Join`
      is the parts in order with `sep` between each neighbouring pair. */
  lemma {:induction false} JoinSnoc(parts: seq<string>, x: string, sep: string)
    requires |parts| > 0
    ensures Join(parts + [x], sep) == Join(parts, sep) + sep + x
    decreases |parts|
  {
    if |parts| == 1 {
      assert (parts + [x])[1..] == [x];
    } else {
      var rest := parts[1..];
      assert (parts + [x])[1..] == rest + [x];
      assert Join(parts + [x], sep) == parts[0] + sep + Join(rest + [x], sep);
      JoinSnoc(rest, x, sep);
      assert parts[0] + sep + (Join(rest, sep) + sep + x) == parts[0] + sep + Join(rest, sep) + sep + x;
    }
  }

  /** Eight parts joined: each neighbouring pair has `sep` between them. */
  lemma {:induction false} JoinEight(a: string, b: string, c: string, d: string,
                                     e: string, f: string, g: string, h: string, sep: string)
    ensures Join([a, b, c, d, e, f, g, h], sep)
            == a + sep + b + sep + c + sep + d + sep + e + sep + f + sep + g + sep + h
  {
    var p2 := [a] + [b];
    var p3 := p2 + [c];
    var p4 := p3 + [d];
    var p5 := p4 + [e];
    var p6 := p5 + [f];
    var p7 := p6 + [g];
    assert [a, b, c, d, e, f, g, h] == p7 + [h];
    JoinSnoc([a], b, sep);
    JoinSnoc(p2, c, sep);
    JoinSnoc(p3, d, sep);
    JoinSnoc(p4, e, sep);
    JoinSnoc(p5, f, sep);
    JoinSnoc(p6, g, sep);
    JoinSnoc(p7, h, sep);
  }

  /** `s.substr(start, length)` for non-negative arguments: at most `length`
      characters from position `start`, clipped to the end of `s`. */
  function Substr(s: string, start: nat, length: nat): (r: string)
    ensures |r| <= length
    ensures start <= |s| ==> r <= s[start..]
    ensures start <= |s| ==> |r| == (if |s| - start < length then |s| - start else length)
    ensures start >= |s| ==> r == ""
  {
    var from := if start < |s| then start else |s|;
    var to := if start + length < |s| then start + length else |s|;
    s[from..to]
  }
}

=== FILE: json.dfy ===
/** The untyped request body the validators receive: whatever `JSON.parse`
    produced, together with the three JavaScript operations the validators
    apply to it — truthiness (`!x`), `typeof x` and a property read `x.key`. */
module Json {
  import opened Wrappers

  /** A parsed JSON value. An object is a map because `JSON.parse` keeps the
      last of any duplicated keys. */
  datatype Value =
    | Null
    | Bool(b: bool)
    | Number(n: real)
    | String(s: string)
    | Array(elems: seq<Value>)
    | Object(fields: map<string, Value>)

  /** JavaScript truthiness: `null`, `false`, `0` and `""` are falsy;
      every array and object, even an empty one, is truthy. */
  function Truthy(v: Value): (t: bool)
    ensures !t <==> v == Null || v == Bool(false) || v == Number(0.0) || v == String("")
  {
    match v
    case Null => false
    case Bool(b) => b
    case Number(n) => n != 0.0
    case String(s) => s != ""
    case Array(_) => true
    case Object(_) => true
  }

  /** Truthiness of a property read, where `None` is `undefined` (falsy). */
  predicate TruthyProp(p: Option<Value>) {
    p.Some? && Truthy(p.value)
  }

  /** `typeof` of a property read; `typeof null` is "object". */
  function TypeOf(p: Option<Value>): (t: string)
    ensures t == "undefined" <==> p.None?
    ensures t == "string" <==> p.Some? && p.value.String?
    ensures t == "number" <==> p.Some? && p.value.Number?
    ensures t == "boolean" <==> p.Some? && p.value.Bool?
  {
    match p
    case None => "undefined"
    case Some(Null) => "object"
    case Some(Bool(_)) => "boolean"
    case Some(Number(_)) => "number"
    case Some(String(_)) => "string"
    case Some(Array(_)) => "object"
    case Some(Object(_)) => "object"
  }

  /** The property read `v[key]` for the field names a product request uses;
      none of them is an own or inherited property of an array, string,
      number or boolean, so only an object can supply one. `None` is `undefined`.
      Reading a property of `null` throws, so `v` is not `null`. */
  function Get(v: Value, key: string): (p: Option<Value>)
    requires !v.Null?
    ensures p.Some? <==> v.Object? && key in v.fields
  {
    if v.Object? && key in v.fields then Some(v.fields[key]) else None
  }

  /** `Object.keys(v).length !== 0`: an object with a key, a non-empty array
      (its indices) or a non-empty string (its character positions).
      `Object.keys(null)` throws, so `v` is not `null`. */
  function HasKeys(v: Value): (h: bool)
    requires !v.Null?
    ensures v.Object? ==> (h <==> v.fields != map[])
    ensures v.Array? ==> (h <==> v.elems != [])
    ensures v.String? ==> (h <==> v.s != "")
    ensures v.Bool? || v.Number? ==> !h
  {
    match v
    case Object(fields) => |fields| > 0
    case Array(elems) => |elems| > 0
    case String(s) => |s| > 0
    case _ => false
  }
}

=== FILE: product.dfy ===
/** The domain model of a catalog product: the persisted entity, the two
    request shapes and the closed category enumeration. */
module ProductModel {
  import opened Wrappers

  /** A stored product; every field is required. Prices are JSON numbers,
      modelled as reals; timestamps are ISO-8601 texts. */
  datatype Product = Product(
    id: string,
    name: string,
    description: string,
    price: real,
    category: string,
    available: bool,
    createdAt: string,
    updatedAt: string)

  /** A validated create request: only `available` may be left unset. */
  datatype CreateProductRequest = CreateProductRequest(
    name: string,
    description: string,
    price: real,
    category: string,
    available: Option<bool>)

  /** A validated update request: the five business fields, each optional.
      It has no `id`, `createdAt` or `updatedAt`, so an update cannot name them. */
  datatype UpdateProductRequest = UpdateProductRequest(
    name: Option<string>,
    description: Option<string>,
    price: Option<real>,
    category: Option<string>,
    available: Option<bool>)

  const EmptyUpdate := UpdateProductRequest(None, None, None, None, None)

  /** The `ProductCategory` enumeration. Products and requests carry the
      category as a string and the validators test `CategoryValues`, so the
      datatype is used only to tie that list to the declared members. */
  datatype ProductCategory =
    Espresso | Coffee | Latte | Cappuccino | Frappuccino | Tea | Pastry | Sandwich

  /** The string value of each enumeration member. */
  function Label(c: ProductCategory): string {
    match c
    case Espresso => "espresso"
    case Coffee => "coffee"
    case Latte => "latte"
    case Cappuccino => "cappuccino"
    case Frappuccino => "frappuccino"
    case Tea => "tea"
    case Pastry => "pastry"
    case Sandwich => "sandwich"
  }

  /** The members in declaration order. */
  const AllCategories: seq<ProductCategory> :=
    [Espresso, Coffee, Latte, Cappuccino, Frappuccino, Tea, Pastry, Sandwich]

  /** `Object.values(ProductCategory)`: the member values in declaration order. */
  const CategoryValues: seq<string> :=
    ["espresso", "coffee", "latte", "cappuccino", "frappuccino", "tea", "pastry", "sandwich"]

  /** `Object.values(ProductCategory).includes(s)`. */
  predicate IsCategory(s: string) {
    s in CategoryValues
  }

  /** The enumeration has eight members with eight distinct values. */
  lemma {:induction false} CategoriesDistinct()
    ensures |CategoryValues| == |AllCategories| == 8
    ensures forall i, j :: 0 <= i < j < 8 ==> CategoryValues[i] != CategoryValues[j]
  {
  }

  /** `CategoryValues` lists the members' values in declaration order, so
      every member's value is a category. */
  lemma {:induction false} CategoryValuesAreLabels()
    ensures |CategoryValues| == |AllCategories|
    ensures forall i :: 0 <= i < |AllCategories| ==> CategoryValues[i] == Label(AllCategories[i])
    ensures forall c: ProductCategory :: IsCategory(Label(c))
  {
    forall c: ProductCategory ensures IsCategory(Label(c)) {
      match c
      case Espresso => assert Label(c) == CategoryValues[0];
      case Coffee => assert Label(c) == CategoryValues[1];
      case Latte => assert Label(c) == CategoryValues[2];
      case Cappuccino => assert Label(c) == CategoryValues[3];
      case Frappuccino => assert Label(c) == CategoryValues[4];
      case Tea => assert Label(c) == CategoryValues[5];
      case Pastry => assert Label(c) == CategoryValues[6];
      case Sandwich => assert Label(c) == CategoryValues[7];
    }
  }
}

=== FILE: product_service.dfy ===
/** `ProductService`: the five table operations, over a table modelled as a
    map from id to product. The clock reading, the ISO-8601 time text and the
    base-36 text of the random draw are parameters. An update is computed the
    way the store computes it: the product is encoded as an item, the `SET`
    request built for the update is applied to it, and the new attributes
    are read back as a product. */
module ProductService {
  import opened Wrappers
  import opened JsText
  import opened ProductModel
  import opened DocumentStore
  import opened UpdateBuilder
  import Validation

  /** The products table: partition key `id` to the stored product. */
  type Store = map<string, Product>

  const IdPrefix := "product_"

  /** The id of a new product: the prefix, the clock reading in
      milliseconds, `_`, and at most nine characters of the base-36 random
      text from position 2 (after its leading "0."). */
  function GenerateId(millis: nat, random36: string): (id: string)
    ensures IdPrefix <= id
    ensures |id| <= |IdPrefix| + |NatToString(millis)| + 1 + 9
  {
    IdPrefix + NatToString(millis) + "_" + Substr(random36, 2, 9)
  }

  /** The number of leading decimal digits of `s`. */
  function LeadingDigits(s: string): (n: nat)
    ensures n <= |s|
    decreases |s|
  {
    if |s| == 0 || !IsDigit(s[0]) then 0 else 1 + LeadingDigits(s[1..])
  }

  /** In a run of digits followed by `_`, the run is the leading digits. */
  lemma {:induction false} LeadingDigitsBeforeUnderscore(a: string, x: string)
    requires forall k :: 0 <= k < |a| ==> IsDigit(a[k])
    ensures LeadingDigits(a + "_" + x) == |a|
    decreases |a|
  {
    if |a| > 0 {
      assert (a + "_" + x)[1..] == a[1..] + "_" + x;
      LeadingDigitsBeforeUnderscore(a[1..], x);
    }
  }

  /** A run of digits followed by `_` is determined by the text it starts. */
  lemma {:induction false} DigitsBeforeUnderscore(a: string, x: string, b: string, y: string)
    requires forall k :: 0 <= k < |a| ==> IsDigit(a[k])
    requires forall k :: 0 <= k < |b| ==> IsDigit(b[k])
    requires a + "_" + x == b + "_" + y
    ensures a == b && x == y
  {
    var s := a + "_" + x;
    LeadingDigitsBeforeUnderscore(a, x);
    LeadingDigitsBeforeUnderscore(b, y);
    assert a == s[..|a|];
    assert b == s[..|b|];
    assert x == s[|a| + 1..];
    assert y == (b + "_" + y)[|b| + 1..];
  }

  /** Two generated ids are equal exactly when the clock readings are equal
      and the random texts agree on the characters used. */
  lemma {:induction false} GenerateIdInjective(m1: nat, r1: string, m2: nat, r2: string)
    ensures GenerateId(m1, r1) == GenerateId(m2, r2)
            <==> m1 == m2 && Substr(r1, 2, 9) == Substr(r2, 2, 9)
  {
    var t1 := NatToString(m1) + "_" + Substr(r1, 2, 9);
    var t2 := NatToString(m2) + "_" + Substr(r2, 2, 9);
    assert GenerateId(m1, r1) == IdPrefix + t1;
    assert GenerateId(m2, r2) == IdPrefix + t2;
    if GenerateId(m1, r1) == GenerateId(m2, r2) {
      assert t1 == GenerateId(m1, r1)[|IdPrefix|..];
      assert t2 == GenerateId(m2, r2)[|IdPrefix|..];
      DigitsBeforeUnderscore(NatToString(m1), Substr(r1, 2, 9), NatToString(m2), Substr(r2, 2, 9));
      NatToStringInjective(m1, m2);
    }
  }

  /** The eight attribute names of a stored product. */
  const ProductAttributes: set<string> :=
    {KeyAttribute, "name", "description", "price", "category", "available", "createdAt", UpdatedAtKey}

  /** The item `put` writes for a product. */
  function ToItem(p: Product): (item: Item)
    ensures item.Keys == ProductAttributes
    ensures item[KeyAttribute] == StringAttr(p.id)
  {
    map[KeyAttribute := StringAttr(p.id),
        "name" := StringAttr(p.name),
        "description" := StringAttr(p.description),
        "price" := NumberAttr(p.price),
        "category" := StringAttr(p.category),
        "available" := BoolAttr(p.available),
        "createdAt" := StringAttr(p.createdAt),
        UpdatedAtKey := StringAttr(p.updatedAt)]
  }

  /** An item read back as a product, when it has all eight attributes with
      the right types; extra attributes are ignored. */
  function FromItem(item: Item): (r: Option<Product>)
    ensures r.Some? ==> forall k :: k in ToItem(r.value) ==> k in item && item[k] == ToItem(r.value)[k]
  {
    if && KeyAttribute in item && item[KeyAttribute].StringAttr?
       && "name" in item && item["name"].StringAttr?
       && "description" in item && item["description"].StringAttr?
       && "price" in item && item["price"].NumberAttr?
       && "category" in item && item["category"].StringAttr?
       && "available" in item && item["available"].BoolAttr?
       && "createdAt" in item && item["createdAt"].StringAttr?
       && UpdatedAtKey in item && item[UpdatedAtKey].StringAttr?
    then Some(Product(item[KeyAttribute].s, item["name"].s, item["description"].s, item["price"].n,
                      item["category"].s, item["available"].b, item["createdAt"].s, item[UpdatedAtKey].s))
    else None
  }

  /** Reading back the item written for a product gives the product. */
  lemma {:induction false} ItemRoundTrip(p: Product)
    ensures FromItem(ToItem(p)) == Some(p)
  {
  }

  /** The table after `put` of a new product, and the product returned: the
      request's fields copied, `available` defaulting to true, both stamps
      `now`; the put stores it under its id and leaves every other id alone. */
  function Create(store: Store, req: CreateProductRequest, now: string, millis: nat, random36: string): (r: (Product, Store))
    ensures r.0.id == GenerateId(millis, random36) && IdPrefix <= r.0.id
    ensures r.0.name == req.name && r.0.description == req.description
    ensures r.0.price == req.price && r.0.category == req.category
    ensures r.0.available == req.available.GetOr(true)
    ensures r.0.createdAt == now && r.0.updatedAt == now
    ensures r.1.Keys == store.Keys + {r.0.id}
    ensures r.1[r.0.id] == r.0
    ensures forall k :: k in store && k != r.0.id ==> r.1[k] == store[k]
  {
    var p := Product(GenerateId(millis, random36), req.name, req.description, req.price, req.category,
                     req.available.GetOr(true), now, now);
    (p, store[p.id := p])
  }

  /** `get` by key: the stored product, or `None` for `null`. */
  function GetById(store: Store, id: string): (r: Option<Product>)
    ensures r.Some? <==> id in store
    ensures r.Some? ==> r.value == store[id]
  {
    if id in store then Some(store[id]) else None
  }

  /** A full `scan`: every stored product once, in an order the store
      chooses. `keys` is that order: the result lists the product stored
      under each key, and every stored key occurs exactly once. */
  method GetAll(store: Store) returns (items: seq<Product>, ghost keys: seq<string>)
    ensures |items| == |keys| == |store|
    ensures Distinct(keys)
    ensures forall k :: k in store <==> k in keys
    ensures forall i :: 0 <= i < |items| ==> items[i] == store[keys[i]]
    ensures forall k :: k in store ==> store[k] in items
  {
    items := [];
    keys := [];
    var remaining := store.Keys;
    while remaining != {}
      invariant remaining <= store.Keys
      invariant |items| == |keys| && |keys| + |remaining| == |store|
      invariant Distinct(keys)
      invariant forall i :: 0 <= i < |keys| ==> keys[i] in store && keys[i] !in remaining
      invariant forall i :: 0 <= i < |keys| ==> items[i] == store[keys[i]]
      invariant forall k :: k in store && k !in remaining ==> k in keys
      decreases |remaining|
    {
      var k :| k in remaining;
      items := items + [store[k]];
      keys := keys + [k];
      remaining := remaining - {k};
    }
    forall k | k in store ensures store[k] in items {
      var i :| 0 <= i < |keys| && keys[i] == k;
      assert items[i] == store[k];
    }
  }

  /** The product an update produces, field by field: supplied fields take
      the new value, `updatedAt` becomes `now`, everything else is kept. */
  function Merge(p: Product, u: UpdateProductRequest, now: string): Product {
    Product(p.id,
            u.name.GetOr(p.name),
            u.description.GetOr(p.description),
            u.price.GetOr(p.price),
            u.category.GetOr(p.category),
            u.available.GetOr(p.available),
            p.createdAt,
            now)
  }

  /** The entry for one field of the update object, absent when the field is. */
  function FieldEntry(key: string, value: Option<AttrValue>): seq<Entry> {
    if value.Some? then [Entry(key, value)] else []
  }

  function TextAttr(v: Option<string>): Option<AttrValue> {
    if v.Some? then Some(StringAttr(v.value)) else None
  }

  /** `Object.entries` of a validated update object, whose keys were added
      in the order name, description, price, category, available. */
  function RequestEntries(u: UpdateProductRequest): (entries: seq<Entry>)
    ensures forall k :: 0 <= k < |entries| ==> entries[k].value.Some?
  {
    FieldEntry("name", TextAttr(u.name))
    + FieldEntry("description", TextAttr(u.description))
    + FieldEntry("price", if u.price.Some? then Some(NumberAttr(u.price.value)) else None)
    + FieldEntry("category", TextAttr(u.category))
    + FieldEntry("available", if u.available.Some? then Some(BoolAttr(u.available.value)) else None)
  }

  /** The change one field entry asks for. */
  function FieldChange(key: string, value: Option<AttrValue>): map<string, AttrValue> {
    if value.Some? then map[key := value.value] else map[]
  }

  /** Appending one field's entry adds that field's change. */
  lemma {:induction false} ChangesAppendField(a: seq<Entry>, key: string, value: Option<AttrValue>)
    ensures Changes(a + FieldEntry(key, value), |a + FieldEntry(key, value)|) == Changes(a, |a|) + FieldChange(key, value)
  {
    var f := FieldEntry(key, value);
    ChangesConcat(a, f, |f|);
    if value.Some? {
      assert Changes(f, 0) == map[];
    }
  }

  /** Every key of the entries is in `keys`. */
  predicate KeysWithin(entries: seq<Entry>, keys: set<string>) {
    forall k :: 0 <= k < |entries| ==> entries[k].key in keys
  }

  /** Appending the entry of a field not seen before keeps the keys acceptable. */
  lemma {:induction false} AcceptableAppend(a: seq<Entry>, keys: set<string>, key: string, value: Option<AttrValue>)
    requires AcceptableKeys(a) && KeysWithin(a, keys)
    requires key !in keys && key != KeyAttribute && key != UpdatedAtKey
    ensures AcceptableKeys(a + FieldEntry(key, value))
    ensures KeysWithin(a + FieldEntry(key, value), keys + {key})
  {
  }

  /** The update object's keys are distinct and are neither `id` nor `updatedAt`. */
  lemma {:induction false} RequestEntriesAcceptable(u: UpdateProductRequest)
    ensures AcceptableKeys(RequestEntries(u))
  {
    var f1 := FieldEntry("name", TextAttr(u.name));
    var f2 := FieldEntry("description", TextAttr(u.description));
    var f3 := FieldEntry("price", if u.price.Some? then Some(NumberAttr(u.price.value)) else None);
    var f4 := FieldEntry("category", TextAttr(u.category));
    AcceptableAppend([], {}, "name", TextAttr(u.name));
    assert [] + f1 == f1;
    AcceptableAppend(f1, {"name"}, "description", TextAttr(u.description));
    AcceptableAppend(f1 + f2, {"name", "description"}, "price",
                     if u.price.Some? then Some(NumberAttr(u.price.value)) else None);
    AcceptableAppend(f1 + f2 + f3, {"name", "description", "price"}, "category", TextAttr(u.category));
    AcceptableAppend(f1 + f2 + f3 + f4, {"name", "description", "price", "category"}, "available",
                     if u.available.Some? then Some(BoolAttr(u.available.value)) else None);
  }

  /** The attribute changes an update asks for: one per supplied field. */
  function RequestChanges(u: UpdateProductRequest): map<string, AttrValue> {
    FieldChange("name", TextAttr(u.name))
    + FieldChange("description", TextAttr(u.description))
    + FieldChange("price", if u.price.Some? then Some(NumberAttr(u.price.value)) else None)
    + FieldChange("category", TextAttr(u.category))
    + FieldChange("available", if u.available.Some? then Some(BoolAttr(u.available.value)) else None)
  }

  lemma {:induction false} UnionAssociative(a: Item, b: Item, c: Item)
    ensures a + (b + c) == (a + b) + c
  {
  }

  /** Writing one supplied field over a product's item gives the item of
      the product with that field replaced. */
  lemma {:induction false} WriteName(q: Product, v: Option<string>)
    ensures ToItem(q) + FieldChange("name", TextAttr(v)) == ToItem(q.(name := v.GetOr(q.name)))
  {
  }

  lemma {:induction false} WriteDescription(q: Product, v: Option<string>)
    ensures ToItem(q) + FieldChange("description", TextAttr(v)) == ToItem(q.(description := v.GetOr(q.description)))
  {
  }

  lemma {:induction false} WritePrice(q: Product, v: Option<real>)
    ensures ToItem(q) + FieldChange("price", if v.Some? then Some(NumberAttr(v.value)) else None) == ToItem(q.(price := v.GetOr(q.price)))
  {
  }

  lemma {:induction false} WriteCategory(q: Product, v: Option<string>)
    ensures ToItem(q) + FieldChange("category", TextAttr(v)) == ToItem(q.(category := v.GetOr(q.category)))
  {
  }

  lemma {:induction false} WriteAvailable(q: Product, v: Option<bool>)
    ensures ToItem(q) + FieldChange("available", if v.Some? then Some(BoolAttr(v.value)) else None) == ToItem(q.(available := v.GetOr(q.available)))
  {
  }

  /** Writing the supplied fields over a product's item gives the item of
      the merged product, before `updatedAt` is stamped. */
  lemma {:induction false} WriteFields(p: Product, u: UpdateProductRequest)
    ensures ToItem(p) + RequestChanges(u) == ToItem(Merge(p, u, p.updatedAt))
  {
    var c1 := FieldChange("name", TextAttr(u.name));
    var c2 := FieldChange("description", TextAttr(u.description));
    var c3 := FieldChange("price", if u.price.Some? then Some(NumberAttr(u.price.value)) else None);
    var c4 := FieldChange("category", TextAttr(u.category));
    var c5 := FieldChange("available", if u.available.Some? then Some(BoolAttr(u.available.value)) else None);
    var q1 := p.(name := u.name.GetOr(p.name));
    var q2 := q1.(description := u.description.GetOr(p.description));
    var q3 := q2.(price := u.price.GetOr(p.price));
    var q4 := q3.(category := u.category.GetOr(p.category));
    WriteName(p, u.name);
    WriteDescription(q1, u.description);
    WritePrice(q2, u.price);
    WriteCategory(q3, u.category);
    WriteAvailable(q4, u.available);
    var i0 := ToItem(p);
    UnionAssociative(i0, c1 + c2 + c3 + c4, c5);
    UnionAssociative(i0, c1 + c2 + c3, c4);
    UnionAssociative(i0, c1 + c2, c3);
    UnionAssociative(i0, c1, c2);
  }

  /** Writing the supplied fields and `updatedAt` over a product's item
      gives the item of the merged product. */
  lemma {:induction false} MergeItem(p: Product, u: UpdateProductRequest, now: string)
    ensures (ToItem(p) + RequestChanges(u))[UpdatedAtKey := StringAttr(now)] == ToItem(Merge(p, u, now))
  {
    var q := Merge(p, u, p.updatedAt);
    WriteFields(p, u);
    assert ToItem(q)[UpdatedAtKey := StringAttr(now)] == ToItem(q.(updatedAt := now));
    assert q.(updatedAt := now) == Merge(p, u, now);
  }

  /** The changes the update object asks for: one per supplied field. */
  lemma {:induction false} RequestEntriesChanges(u: UpdateProductRequest)
    ensures Changes(RequestEntries(u), |RequestEntries(u)|) == RequestChanges(u)
  {
    var v3 := if u.price.Some? then Some(NumberAttr(u.price.value)) else None;
    var v5 := if u.available.Some? then Some(BoolAttr(u.available.value)) else None;
    var f1 := FieldEntry("name", TextAttr(u.name));
    var f2 := FieldEntry("description", TextAttr(u.description));
    var f3 := FieldEntry("price", v3);
    var f4 := FieldEntry("category", TextAttr(u.category));
    ChangesAppendField([], "name", TextAttr(u.name));
    assert [] + f1 == f1;
    assert Changes([], 0) == map[];
    assert map[] + FieldChange("name", TextAttr(u.name)) == FieldChange("name", TextAttr(u.name));
    ChangesAppendField(f1, "description", TextAttr(u.description));
    ChangesAppendField(f1 + f2, "price", v3);
    ChangesAppendField(f1 + f2 + f3, "category", TextAttr(u.category));
    ChangesAppendField(f1 + f2 + f3 + f4, "available", v5);
  }

  /** Applying the `SET` request built for an update to a stored product's
      item gives exactly the item of the merged product. */
  lemma {:induction false} UpdateItem(p: Product, u: UpdateProductRequest, now: string)
    ensures Apply(ToItem(p), BuildUpdate(RequestEntries(u), now)) == Some(ToItem(Merge(p, u, now)))
  {
    RequestEntriesAcceptable(u);
    ApplyBuild(ToItem(p), RequestEntries(u), now);
    RequestEntriesChanges(u);
    MergeItem(p, u, now);
  }

  /** What `update` reports. */
  datatype UpdateOutcome =
    | NotFound
    | Rejected
    | Updated(product: Product)

  /** `update`: a missing id is reported without a write; otherwise the
      store applies the request and returns all new attributes. `Rejected`
      stands for the store refusing the request. */
  function Update(store: Store, id: string, u: UpdateProductRequest, now: string): (r: (UpdateOutcome, Store))
    ensures id !in store <==> r.0 == NotFound
    ensures !r.0.Updated? ==> r.1 == store
    ensures r.0.Updated? ==> r.1 == store[id := r.0.product]
  {
    if id !in store then (NotFound, store)
    else
      var after := Apply(ToItem(store[id]), BuildUpdate(RequestEntries(u), now));
      if after.None? then (Rejected, store)
      else
        var p := FromItem(after.value);
        if p.None? then (Rejected, store) else (Updated(p.value), store[id := p.value])
  }

  /** An update of a stored product always succeeds and stores the merged product. */
  lemma {:induction false} UpdateMatchesMerge(store: Store, id: string, u: UpdateProductRequest, now: string)
    requires id in store
    ensures Update(store, id, u, now) == (Updated(Merge(store[id], u, now)), store[id := Merge(store[id], u, now)])
  {
    UpdateItem(store[id], u, now);
    ItemRoundTrip(Merge(store[id], u, now));
  }

  /** `delete`: `false` without a write for a missing id, otherwise the key is removed. */
  function Delete(store: Store, id: string): (r: (bool, Store))
    ensures r.0 <==> id in store
    ensures r.1.Keys == store.Keys - {id}
    ensures forall k :: k in r.1 ==> r.1[k] == store[k]
  {
    if id !in store then (false, store) else (true, store - {id})
  }

  /** What every stored product satisfies when all writes come through the
      validators: it is filed under its own id, the id has the generated
      prefix, and its fields meet the validation rules. */
  predicate ValidProduct(p: Product) {
    && IdPrefix <= p.id
    && IsTrimmed(p.name) && IsTrimmed(p.description)
    && p.price >= 0.0 && IsCategory(p.category)
  }

  predicate StoreInvariant(store: Store) {
    forall k :: k in store ==> store[k].id == k && ValidProduct(store[k])
  }

  /** Creating from a validated request keeps the invariant. */
  lemma {:induction false} CreatePreservesInvariant(store: Store, req: CreateProductRequest, now: string, millis: nat, random36: string)
    requires StoreInvariant(store) && Validation.ValidCreateRequest(req)
    ensures StoreInvariant(Create(store, req, now, millis, random36).1)
  {
  }

  /** Updating with a validated request keeps the invariant. */
  lemma {:induction false} UpdatePreservesInvariant(store: Store, id: string, u: UpdateProductRequest, now: string)
    requires StoreInvariant(store) && Validation.ValidUpdateRequest(u)
    ensures StoreInvariant(Update(store, id, u, now).1)
  {
    if id in store {
      UpdateMatchesMerge(store, id, u, now);
    }
  }

  /** Deleting keeps the invariant. */
  lemma {:induction false} DeletePreservesInvariant(store: Store, id: string)
    requires StoreInvariant(store)
    ensures StoreInvariant(Delete(store, id).1)
  {
  }

  /** A created product is read back by its id with the request's fields;
      every other product is unchanged. */
  lemma {:induction false} CreateThenGet(store: Store, req: CreateProductRequest, now: string, millis: nat, random36: string, other: string)
    ensures var (p, after) := Create(store, req, now, millis, random36);
      && GetById(after, p.id) == Some(p)
      && p == Product(GenerateId(millis, random36), req.name, req.description, req.price, req.category,
                      req.available.GetOr(true), now, now)
      && (other != p.id ==> GetById(after, other) == GetById(store, other))
  {
  }

  /** After an update of a stored product, reading it gives the merged product
      and other products are unchanged. */
  lemma {:induction false} UpdateThenGet(store: Store, id: string, u: UpdateProductRequest, now: string, other: string)
    requires id in store
    ensures GetById(Update(store, id, u, now).1, id) == Some(Merge(store[id], u, now))
    ensures other != id ==> GetById(Update(store, id, u, now).1, other) == GetById(store, other)
  {
    UpdateMatchesMerge(store, id, u, now);
  }

  /** After a delete the id is gone and other products are unchanged. */
  lemma {:induction false} DeleteThenGet(store: Store, id: string, other: string)
    ensures GetById(Delete(store, id).1, id) == None
    ensures other != id ==> GetById(Delete(store, id).1, other) == GetById(store, other)
  {
  }
}

=== FILE: update_builder.dfy ===
/** How `ProductService.update` turns an update request into a partial
    update: one `#attrI = :valI` clause per defined entry of the request, in
    enumeration order with `I` the entry's position, then an unconditional
    `#updatedAt = :updatedAt` clause. */
module UpdateBuilder {
  import opened Wrappers
  import opened JsText
  import opened DocumentStore

  /** One `[key, value]` pair of `Object.entries`; `None` is an `undefined` value. */
  datatype Entry = Entry(key: string, value: Option<AttrValue>)

  /** `#attr${index}`. */
  function AttrName(i: nat): (r: string)
    ensures |r| > 5 && r[..5] == "#attr"
  {
    "#attr" + NatToString(i)
  }

  /** `:val${index}`. */
  function ValueName(i: nat): (r: string)
    ensures |r| > 4 && r[..4] == ":val"
  {
    ":val" + NatToString(i)
  }

  const UpdatedAtName := "#updatedAt"
  const UpdatedAtValue := ":updatedAt"
  const UpdatedAtKey := "updatedAt"

  /** After its prefix, a placeholder is the decimal text of its index,
      which reads back as that index. */
  lemma {:induction false} PlaceholderIndex(i: nat)
    ensures AllDigits(AttrName(i)[5..]) && ParseDecimal(AttrName(i)[5..]) == i
    ensures AllDigits(ValueName(i)[4..]) && ParseDecimal(ValueName(i)[4..]) == i
  {
    assert AttrName(i)[5..] == NatToString(i);
    assert ValueName(i)[4..] == NatToString(i);
    ParseNatToString(i);
  }

  /** Placeholders built from different positions are different. */
  lemma {:induction false} PlaceholdersInjective(i: nat, j: nat)
    ensures AttrName(i) == AttrName(j) ==> i == j
    ensures ValueName(i) == ValueName(j) ==> i == j
  {
    PlaceholderIndex(i);
    PlaceholderIndex(j);
  }

  /** No indexed placeholder collides with the fixed `updatedAt` ones. */
  lemma {:induction false} PlaceholdersAvoidUpdatedAt(i: nat)
    ensures AttrName(i) != UpdatedAtName
    ensures ValueName(i) != UpdatedAtValue
  {
    assert AttrName(i)[1] == 'a';
    assert ValueName(i)[1] == 'v';
  }

  /** The positions among the first `n` entries whose value is defined, in order. */
  function Positions(entries: seq<Entry>, n: nat): (ps: seq<nat>)
    requires n <= |entries|
    ensures forall i :: 0 <= i < |ps| ==> ps[i] < n && entries[ps[i]].value.Some?
    ensures forall i, j :: 0 <= i < j < |ps| ==> ps[i] < ps[j]
    ensures forall k :: 0 <= k < n && entries[k].value.Some? ==> k in ps
    decreases n
  {
    if n == 0 then []
    else
      var prev := Positions(entries, n - 1);
      if entries[n - 1].value.Some? then prev + [n - 1] else prev
  }

  /** The `forEach` over the first `n` entries: the indexed clauses and both placeholder maps. */
  function Build(entries: seq<Entry>, n: nat): (e: UpdateExpression)
    requires n <= |entries|
    ensures Resolves(e.clauses, e.names, e.values)
    ensures forall k: nat :: AttrName(k) in e.names ==> k < n
    ensures forall k: nat :: ValueName(k) in e.values ==> k < n
    decreases n
  {
    if n == 0 then UpdateExpression([], map[], map[])
    else
      var i := n - 1;
      var prev := Build(entries, i);
      var entry := entries[i];
      if entry.value.None? then prev
      else
        var next := UpdateExpression(prev.clauses + [Clause(AttrName(i), ValueName(i))],
                                     prev.names[AttrName(i) := entry.key],
                                     prev.values[ValueName(i) := entry.value.value]);
        assert forall k: nat :: AttrName(k) in next.names ==> k < n by {
          forall k: nat | AttrName(k) in next.names ensures k < n {
            PlaceholdersInjective(k, i);
          }
        }
        assert forall k: nat :: ValueName(k) in next.values ==> k < n by {
          forall k: nat | ValueName(k) in next.values ensures k < n {
            PlaceholdersInjective(k, i);
          }
        }
        next
  }

  /** A defined entry at position `k` gets the name placeholder `#attrk`,
      mapped to its key; an undefined one gets none. */
  lemma {:induction false} BuildNames(entries: seq<Entry>, n: nat)
    requires n <= |entries|
    ensures var e := Build(entries, n);
            forall k :: 0 <= k < n ==>
              && (AttrName(k) in e.names <==> entries[k].value.Some?)
              && (AttrName(k) in e.names ==> e.names[AttrName(k)] == entries[k].key)
    decreases n
  {
    if n > 0 {
      var i := n - 1;
      BuildNames(entries, i);
      BuildStep(entries, n);
      var prev, e := Build(entries, i), Build(entries, n);
      forall k | 0 <= k < n
        ensures AttrName(k) in e.names <==> entries[k].value.Some?
        ensures AttrName(k) in e.names ==> e.names[AttrName(k)] == entries[k].key
      {
        if k < i {
          PlaceholdersInjective(k, i);
        } else {
          assert AttrName(i) !in prev.names;
        }
      }
    }
  }

  /** A defined entry at position `k` gets the value placeholder `:valk`,
      mapped to its value; an undefined one gets none. */
  lemma {:induction false} BuildValues(entries: seq<Entry>, n: nat)
    requires n <= |entries|
    ensures var e := Build(entries, n);
            forall k :: 0 <= k < n ==>
              && (ValueName(k) in e.values <==> entries[k].value.Some?)
              && (ValueName(k) in e.values ==> e.values[ValueName(k)] == entries[k].value.value)
    decreases n
  {
    if n > 0 {
      var i := n - 1;
      BuildValues(entries, i);
      BuildStep(entries, n);
      var prev, e := Build(entries, i), Build(entries, n);
      forall k | 0 <= k < n
        ensures ValueName(k) in e.values <==> entries[k].value.Some?
        ensures ValueName(k) in e.values ==> e.values[ValueName(k)] == entries[k].value.value
      {
        if k < i {
          PlaceholdersInjective(k, i);
        } else {
          assert ValueName(i) !in prev.values;
        }
      }
    }
  }

  /** The clauses are `#attrk = :valk` for the defined positions `k`, in order. */
  lemma {:induction false} BuildClauses(entries: seq<Entry>, n: nat)
    requires n <= |entries|
    ensures var e := Build(entries, n);
            var ps := Positions(entries, n);
            && |e.clauses| == |ps|
            && forall i :: 0 <= i < |ps| ==> e.clauses[i] == Clause(AttrName(ps[i]), ValueName(ps[i]))
    decreases n
  {
    if n > 0 {
      BuildClauses(entries, n - 1);
      BuildStep(entries, n);
    }
  }

  /** Every name placeholder the map defines is used by a clause. */
  lemma {:induction false} BuildUsesAllNames(entries: seq<Entry>, n: nat)
    requires n <= |entries|
    ensures NamesUsed(Build(entries, n))
    decreases n
  {
    if n > 0 {
      var i := n - 1;
      BuildUsesAllNames(entries, i);
      var prev := Build(entries, i);
      var e := Build(entries, n);
      if entries[i].value.Some? {
        forall x | x in e.names ensures x in NameTokens(e.clauses) {
          if x != AttrName(i) {
            var j :| 0 <= j < |NameTokens(prev.clauses)| && NameTokens(prev.clauses)[j] == x;
            assert NameTokens(e.clauses)[j] == x;
          } else {
            assert NameTokens(e.clauses)[|prev.clauses|] == x;
          }
        }
      }
    }
  }

  /** Every value placeholder the map defines is used by a clause. */
  lemma {:induction false} BuildUsesAllValues(entries: seq<Entry>, n: nat)
    requires n <= |entries|
    ensures ValuesUsed(Build(entries, n))
    decreases n
  {
    if n > 0 {
      var i := n - 1;
      BuildUsesAllValues(entries, i);
      var prev := Build(entries, i);
      var e := Build(entries, n);
      if entries[i].value.Some? {
        forall x | x in e.values ensures x in ValueTokens(e.clauses) {
          if x != ValueName(i) {
            var j :| 0 <= j < |ValueTokens(prev.clauses)| && ValueTokens(prev.clauses)[j] == x;
            assert ValueTokens(e.clauses)[j] == x;
          } else {
            assert ValueTokens(e.clauses)[|prev.clauses|] == x;
          }
        }
      }
    }
  }

  /** Placeholder names come from enumeration positions, so no two clauses
      share one, and none is an `updatedAt` placeholder. */
  lemma {:induction false} PlaceholderNamesDistinct(entries: seq<Entry>, n: nat)
    requires n <= |entries|
    ensures var e := Build(entries, n);
            && Distinct(NameTokens(e.clauses)) && Distinct(ValueTokens(e.clauses))
            && UpdatedAtName !in NameTokens(e.clauses) && UpdatedAtValue !in ValueTokens(e.clauses)
  {
    var ps := Positions(entries, n);
    BuildClauses(entries, n);
    forall i, j | 0 <= i < j < |ps|
      ensures AttrName(ps[i]) != AttrName(ps[j]) && ValueName(ps[i]) != ValueName(ps[j])
    {
      PlaceholdersInjective(ps[i], ps[j]);
    }
    forall i | 0 <= i < |ps|
      ensures AttrName(ps[i]) != UpdatedAtName && ValueName(ps[i]) != UpdatedAtValue
    {
      PlaceholdersAvoidUpdatedAt(ps[i]);
    }
  }

  /** The attribute changes the first `n` entries ask for, a later entry
      overriding an earlier one with the same key. */
  function Changes(entries: seq<Entry>, n: nat): (m: map<string, AttrValue>)
    requires n <= |entries|
    ensures forall k :: 0 <= k < n && entries[k].value.Some? ==> entries[k].key in m
    decreases n
  {
    if n == 0 then map[]
    else
      var prev := Changes(entries, n - 1);
      var entry := entries[n - 1];
      if entry.value.Some? then prev[entry.key := entry.value.value] else prev
  }

  /** Only the first `n` entries matter to `Changes`. */
  lemma {:induction false} ChangesAgree(s: seq<Entry>, t: seq<Entry>, n: nat)
    requires n <= |s| && n <= |t|
    requires forall k :: 0 <= k < n ==> s[k] == t[k]
    ensures Changes(s, n) == Changes(t, n)
    decreases n
  {
    if n > 0 {
      ChangesAgree(s, t, n - 1);
    }
  }

  /** Changes of a concatenation: the right part wins. */
  lemma {:induction false} ChangesConcat(a: seq<Entry>, b: seq<Entry>, m: nat)
    requires m <= |b|
    ensures Changes(a + b, |a| + m) == Changes(a, |a|) + Changes(b, m)
    decreases m
  {
    if m == 0 {
      ChangesAgree(a + b, a, |a|);
      assert Changes(a, |a|) + map[] == Changes(a, |a|);
    } else {
      ChangesConcat(a, b, m - 1);
      assert (a + b)[|a| + m - 1] == b[m - 1];
      if b[m - 1].value.Some? {
        var k, v := b[m - 1].key, b[m - 1].value.value;
        assert (Changes(a, |a|) + Changes(b, m - 1))[k := v] == Changes(a, |a|) + Changes(b, m - 1)[k := v];
      }
    }
  }

  /** `small` is contained in `big`: every key of `small` maps to the same value in `big`. */
  predicate SubMap<V(==)>(small: map<string, V>, big: map<string, V>) {
    forall k :: k in small ==> k in big && big[k] == small[k]
  }

  /** Placeholder maps that extend those built for `n` entries also extend
      those built for `n - 1`. */
  lemma {:induction false} SubMapPrefix(entries: seq<Entry>, n: nat, names: map<string, string>, values: map<string, AttrValue>)
    requires 0 < n <= |entries|
    requires SubMap(Build(entries, n).names, names)
    requires SubMap(Build(entries, n).values, values)
    ensures SubMap(Build(entries, n - 1).names, names)
    ensures SubMap(Build(entries, n - 1).values, values)
  {
    var prev := Build(entries, n - 1);
    if entries[n - 1].value.Some? {
      assert AttrName(n - 1) !in prev.names;
      assert ValueName(n - 1) !in prev.values;
    }
  }

  /** Clauses that resolve under some placeholder maps resolve under any extension of them. */
  lemma {:induction false} ResolvesUnder(cs: seq<Clause>, names: map<string, string>, values: map<string, AttrValue>,
                                         names': map<string, string>, values': map<string, AttrValue>)
    requires Resolves(cs, names, values) && SubMap(names, names') && SubMap(values, values')
    ensures Resolves(cs, names', values')
  {
  }

  /** Running the indexed clauses, under any placeholder maps that extend
      the ones they were built with, applies exactly `Changes`. */
  lemma {:induction false} AssignBuild(item: Item, entries: seq<Entry>, n: nat,
                                       names: map<string, string>, values: map<string, AttrValue>)
    requires n <= |entries|
    requires SubMap(Build(entries, n).names, names)
    requires SubMap(Build(entries, n).values, values)
    ensures Resolves(Build(entries, n).clauses, names, values)
    ensures Assign(item, Build(entries, n).clauses, |Build(entries, n).clauses|, names, values)
            == item + Changes(entries, n)
    decreases n
  {
    var e := Build(entries, n);
    ResolvesUnder(e.clauses, e.names, e.values, names, values);
    if n > 0 {
      SubMapPrefix(entries, n, names, values);
      AssignBuild(item, entries, n - 1, names, values);
      AssignBuildStep(item, entries, n, names, values);
    }
  }

  /** The inductive step of `AssignBuild`: entry `n - 1` adds, through its
      clause, exactly the change it contributes. */
  lemma {:induction false} AssignBuildStep(item: Item, entries: seq<Entry>, n: nat,
                                           names: map<string, string>, values: map<string, AttrValue>)
    requires 0 < n <= |entries|
    requires SubMap(Build(entries, n).names, names)
    requires SubMap(Build(entries, n).values, values)
    requires Resolves(Build(entries, n - 1).clauses, names, values)
    requires Resolves(Build(entries, n).clauses, names, values)
    requires Assign(item, Build(entries, n - 1).clauses, |Build(entries, n - 1).clauses|, names, values)
             == item + Changes(entries, n - 1)
    ensures Assign(item, Build(entries, n).clauses, |Build(entries, n).clauses|, names, values)
            == item + Changes(entries, n)
  {
    var i := n - 1;
    BuildStep(entries, n);
    if entries[i].value.Some? {
      BuildSnoc(entries, n, names, values);
      AssignDefined(item, Build(entries, i).clauses, Clause(AttrName(i), ValueName(i)), names, values,
                    Changes(entries, i), entries[i].key, entries[i].value.value);
    }
  }

  /** A defined entry `n - 1` appends its clause, whose placeholders resolve,
      under maps extending the built ones, to its key and its value. */
  lemma {:induction false} BuildSnoc(entries: seq<Entry>, n: nat,
                                     names: map<string, string>, values: map<string, AttrValue>)
    requires 0 < n <= |entries| && entries[n - 1].value.Some?
    requires SubMap(Build(entries, n).names, names)
    requires SubMap(Build(entries, n).values, values)
    ensures Build(entries, n).clauses == Build(entries, n - 1).clauses + [Clause(AttrName(n - 1), ValueName(n - 1))]
    ensures AttrName(n - 1) in names && names[AttrName(n - 1)] == entries[n - 1].key
    ensures ValueName(n - 1) in values && values[ValueName(n - 1)] == entries[n - 1].value.value
  {
    BuildStep(entries, n);
  }

  /** Appending one resolvable clause overwrites its key with its value. */
  lemma {:induction false} AssignDefined(item: Item, cs: seq<Clause>, c: Clause,
                                         names: map<string, string>, values: map<string, AttrValue>,
                                         changes: map<string, AttrValue>, k: string, v: AttrValue)
    requires Resolves(cs, names, values) && Resolves(cs + [c], names, values)
    requires c.name in names && names[c.name] == k
    requires c.value in values && values[c.value] == v
    requires Assign(item, cs, |cs|, names, values) == item + changes
    ensures Assign(item, cs + [c], |cs| + 1, names, values) == item + changes[k := v]
  {
    AssignStep(item, cs, c, names, values);
    UnionUpdate(item, changes, k, v);
  }

  /** One step of the `forEach`: a defined entry adds its clause, both
      placeholders and its change; an undefined one adds nothing. */
  lemma {:induction false} BuildStep(entries: seq<Entry>, n: nat)
    requires 0 < n <= |entries|
    ensures var prev := Build(entries, n - 1);
            var entry := entries[n - 1];
            if entry.value.Some? then
              && Build(entries, n) == UpdateExpression(prev.clauses + [Clause(AttrName(n - 1), ValueName(n - 1))],
                                                       prev.names[AttrName(n - 1) := entry.key],
                                                       prev.values[ValueName(n - 1) := entry.value.value])
              && Changes(entries, n) == Changes(entries, n - 1)[entry.key := entry.value.value]
            else
              && Build(entries, n) == prev
              && Changes(entries, n) == Changes(entries, n - 1)
  {
  }

  /** Overwriting one key after a union is overwriting it in the right operand. */
  lemma {:induction false} UnionUpdate(a: map<string, AttrValue>, b: map<string, AttrValue>, k: string, v: AttrValue)
    ensures (a + b)[k := v] == a + b[k := v]
  {
  }

  /** The whole request: the indexed clauses, then `#updatedAt = :updatedAt` with the time `now`. */
  function BuildUpdate(entries: seq<Entry>, now: string): (e: UpdateExpression)
    ensures |e.clauses| > 0 && e.clauses[|e.clauses| - 1] == Clause(UpdatedAtName, UpdatedAtValue)
    ensures UpdatedAtName in e.names && e.names[UpdatedAtName] == UpdatedAtKey
    ensures UpdatedAtValue in e.values && e.values[UpdatedAtValue] == StringAttr(now)
  {
    var b := Build(entries, |entries|);
    UpdateExpression(b.clauses + [Clause(UpdatedAtName, UpdatedAtValue)],
                     b.names[UpdatedAtName := UpdatedAtKey],
                     b.values[UpdatedAtValue := StringAttr(now)])
  }

  /** The placeholder maps of the whole request extend those of the indexed clauses. */
  lemma {:induction false} BuildUpdateExtends(entries: seq<Entry>, now: string)
    ensures var b := Build(entries, |entries|);
            var e := BuildUpdate(entries, now);
            && SubMap(b.names, e.names) && SubMap(b.values, e.values)
            && |e.clauses| == |b.clauses| + 1
            && forall j :: 0 <= j < |b.clauses| ==> e.clauses[j] == b.clauses[j]
  {
    var b := Build(entries, |entries|);
    assert UpdatedAtName !in b.names by {
      BuildUsesAllNames(entries, |entries|);
      PlaceholderNamesDistinct(entries, |entries|);
    }
    assert UpdatedAtValue !in b.values by {
      BuildUsesAllValues(entries, |entries|);
      PlaceholderNamesDistinct(entries, |entries|);
    }
  }

  /** The keys an `Object.entries` list may carry into an update: distinct
      (as object keys are) and never the partition key or `updatedAt`. */
  predicate AcceptableKeys(entries: seq<Entry>) {
    && (forall j, k :: 0 <= j < k < |entries| ==> entries[j].key != entries[k].key)
    && (forall k :: 0 <= k < |entries| ==> entries[k].key != KeyAttribute && entries[k].key != UpdatedAtKey)
  }

  /** The attribute assigned by each clause: the key of the entry it was built from, then `updatedAt`. */
  lemma {:induction false} BuildUpdateTargets(entries: seq<Entry>, now: string)
    ensures var e := BuildUpdate(entries, now);
            var ps := Positions(entries, |entries|);
            && Resolves(e.clauses, e.names, e.values)
            && |e.clauses| == |ps| + 1
            && (forall i :: 0 <= i < |ps| ==> Targets(e.clauses, e.names, e.values)[i] == entries[ps[i]].key)
            && Targets(e.clauses, e.names, e.values)[|ps|] == UpdatedAtKey
  {
    var e := BuildUpdate(entries, now);
    var b := Build(entries, |entries|);
    var ps := Positions(entries, |entries|);
    BuildUpdateExtends(entries, now);
    BuildClauses(entries, |entries|);
    BuildNames(entries, |entries|);
    forall i | 0 <= i < |ps|
      ensures Targets(e.clauses, e.names, e.values)[i] == entries[ps[i]].key
    {
      assert e.clauses[i] == b.clauses[i];
      assert e.names[AttrName(ps[i])] == b.names[AttrName(ps[i])];
    }
  }

  /** Every name placeholder of the whole request is used by one of its clauses. */
  lemma {:induction false} BuildUpdateUsesNames(entries: seq<Entry>, now: string)
    ensures NamesUsed(BuildUpdate(entries, now))
  {
    var e := BuildUpdate(entries, now);
    var b := Build(entries, |entries|);
    BuildUpdateExtends(entries, now);
    BuildUsesAllNames(entries, |entries|);
    forall x | x in e.names ensures x in NameTokens(e.clauses) {
      if x != UpdatedAtName {
        var j :| 0 <= j < |NameTokens(b.clauses)| && NameTokens(b.clauses)[j] == x;
        assert NameTokens(e.clauses)[j] == x;
      } else {
        assert NameTokens(e.clauses)[|b.clauses|] == x;
      }
    }
  }

  /** Every value placeholder of the whole request is used by one of its clauses. */
  lemma {:induction false} BuildUpdateUsesValues(entries: seq<Entry>, now: string)
    ensures ValuesUsed(BuildUpdate(entries, now))
  {
    var e := BuildUpdate(entries, now);
    var b := Build(entries, |entries|);
    BuildUpdateExtends(entries, now);
    BuildUsesAllValues(entries, |entries|);
    forall x | x in e.values ensures x in ValueTokens(e.clauses) {
      if x != UpdatedAtValue {
        var j :| 0 <= j < |ValueTokens(b.clauses)| && ValueTokens(b.clauses)[j] == x;
        assert ValueTokens(e.clauses)[j] == x;
      } else {
        assert ValueTokens(e.clauses)[|b.clauses|] == x;
      }
    }
  }

  /** The store accepts the whole request when no entry targets the
      partition key or `updatedAt` and no two entries share a key (as the
      entries of an object never do). */
  lemma {:induction false} BuildUpdateWellFormed(entries: seq<Entry>, now: string)
    requires AcceptableKeys(entries)
    ensures WellFormed(BuildUpdate(entries, now))
  {
    var e := BuildUpdate(entries, now);
    var ps := Positions(entries, |entries|);
    BuildUpdateTargets(entries, now);
    BuildUpdateUsesNames(entries, now);
    BuildUpdateUsesValues(entries, now);
    KeysAtPositionsDistinct(entries, ps, Targets(e.clauses, e.names, e.values));
  }

  /** Keys read at increasing positions of acceptable entries, followed by
      `updatedAt`, are distinct and never the partition key. */
  lemma {:induction false} KeysAtPositionsDistinct(entries: seq<Entry>, ps: seq<nat>, t: seq<string>)
    requires AcceptableKeys(entries)
    requires |t| == |ps| + 1
    requires forall i :: 0 <= i < |ps| ==> ps[i] < |entries| && t[i] == entries[ps[i]].key
    requires forall i, j :: 0 <= i < j < |ps| ==> ps[i] < ps[j]
    requires t[|ps|] == UpdatedAtKey
    ensures Distinct(t) && KeyAttribute !in t
  {
    forall i, j | 0 <= i < j < |t| ensures t[i] != t[j] {
      if j < |ps| {
        assert ps[i] < ps[j];
      }
    }
  }

  /** With acceptable keys the store accepts the request, assigns every
      defined entry and stamps `updatedAt`; nothing else changes. */
  lemma {:induction false} ApplyBuild(item: Item, entries: seq<Entry>, now: string)
    requires AcceptableKeys(entries)
    ensures Apply(item, BuildUpdate(entries, now))
            == Some((item + Changes(entries, |entries|))[UpdatedAtKey := StringAttr(now)])
  {
    var e := BuildUpdate(entries, now);
    var b := Build(entries, |entries|);
    BuildUpdateWellFormed(entries, now);
    BuildUpdateExtends(entries, now);
    AssignBuild(item, entries, |entries|, e.names, e.values);
    AssignAgree(item, e.clauses, b.clauses, |b.clauses|, e.names, e.values);
  }

  /** A defined entry for the partition key or for `updatedAt` makes the
      store reject the whole request. */
  lemma {:induction false} ApplyBuildRejects(item: Item, entries: seq<Entry>, now: string, k: nat)
    requires k < |entries| && entries[k].value.Some?
    requires entries[k].key == KeyAttribute || entries[k].key == UpdatedAtKey
    ensures Apply(item, BuildUpdate(entries, now)) == None
  {
    var e := BuildUpdate(entries, now);
    var ps := Positions(entries, |entries|);
    BuildUpdateTargets(entries, now);
    var t := Targets(e.clauses, e.names, e.values);
    var j :| 0 <= j < |ps| && ps[j] == k;
    if entries[k].key == KeyAttribute {
      assert t[j] == KeyAttribute;
    } else {
      assert t[j] == t[|ps|];
    }
  }

  /** The rendered request always ends with the `updatedAt` clause. */
  lemma {:induction false} RenderEndsWithStamp(entries: seq<Entry>, now: string)
    ensures EndsWith(Render(BuildUpdate(entries, now)), UpdatedAtName + " = " + UpdatedAtValue)
  {
  }
}

=== FILE: validation.dfy ===
/** The request validators: pure functions from an untyped parsed body to a
    validated request, or a `ValidationError` carrying the user-facing
    message. A thrown `ValidationError` is modelled as an `Err` result. */
module Validation {
  import opened Wrappers
  import opened JsText
  import opened Json
  import opened ProductModel

  /** The messages the validators raise. */
  datatype Message =
    | BodyRequired | NameRequired | DescriptionRequired | PriceRequired | CategoryRequired
    | CategoryMembership | AvailableBoolean | FieldRequired | NameNonEmpty | DescriptionNonEmpty
    | PricePositive | IdRequired

  /** The text of each message, as the client receives it. */
  function MessageText(m: Message): string {
    match m
    case BodyRequired => "Request body is required"
    case NameRequired => "Name is required and must be a string"
    case DescriptionRequired => "Description is required and must be a string"
    case PriceRequired => "Price is required and must be a positive number"
    case CategoryRequired => "Category is required and must be a string"
    case CategoryMembership => "Category must be one of: " + Join(CategoryValues, ", ")
    case AvailableBoolean => "Available must be a boolean"
    case FieldRequired => "At least one field is required for update"
    case NameNonEmpty => "Name must be a non-empty string"
    case DescriptionNonEmpty => "Description must be a non-empty string"
    case PricePositive => "Price must be a positive number"
    case IdRequired => "Product ID is required and must be a non-empty string"
  }

  /** Which message a text is, told apart by its last character and its
      length; a left inverse of `MessageText`. */
  function MessageOf(t: string): Option<Message> {
    if |t| == 0 then None
    else
      var last := t[|t| - 1];
      if last == 'h' then Some(CategoryMembership)
      else if last == 'n' then Some(AvailableBoolean)
      else if last == 'd' then Some(BodyRequired)
      else if last == 'e' then Some(FieldRequired)
      else if last == 'r' then Some(if |t| == 47 then PriceRequired else PricePositive)
      else if last != 'g' then None
      else if |t| == 37 then Some(NameRequired)
      else if |t| == 44 then Some(DescriptionRequired)
      else if |t| == 41 then Some(CategoryRequired)
      else if |t| == 31 then Some(NameNonEmpty)
      else if |t| == 38 then Some(DescriptionNonEmpty)
      else Some(IdRequired)
  }

  lemma {:induction false} MessageOfText(m: Message)
    ensures MessageOf(MessageText(m)) == Some(m)
  {
    match m
    case CategoryMembership => MembershipEndsWithLastValue();
    case NameRequired => StringMessageOfText(m);
    case DescriptionRequired => StringMessageOfText(m);
    case CategoryRequired => StringMessageOfText(m);
    case NameNonEmpty => StringMessageOfText(m);
    case DescriptionNonEmpty => StringMessageOfText(m);
    case IdRequired => StringMessageOfText(m);
    case _ =>
  }

  /** The messages about a string field, which all end in "string", differ in length. */
  lemma {:induction false} StringMessageOfText(m: Message)
    requires m in {NameRequired, DescriptionRequired, CategoryRequired, NameNonEmpty, DescriptionNonEmpty, IdRequired}
    ensures MessageOf(MessageText(m)) == Some(m)
  {
  }

  /** The membership message ends with the last category value. */
  lemma {:induction false} MembershipEndsWithLastValue()
    ensures var t := MessageText(CategoryMembership); |t| > 0 && t[|t| - 1] == 'h'
  {
    var j := Join(CategoryValues, ", ");
    assert EndsWith(j, "sandwich");
    assert j[|j| - 1] == 'h';
  }

  /** The membership message spelled out: the fixed prefix, then the eight
      values in declaration order with ", " between neighbours. */
  lemma {:induction false} CategoryMessageText()
    ensures MessageText(CategoryMembership)
            == "Category must be one of: "
               + ("espresso" + ", " + "coffee" + ", " + "latte" + ", " + "cappuccino" + ", "
                  + "frappuccino" + ", " + "tea" + ", " + "pastry" + ", " + "sandwich")
  {
    JoinEight("espresso", "coffee", "latte", "cappuccino", "frappuccino", "tea", "pastry", "sandwich", ", ");
  }

  /** Different messages have different texts, so the text a client
      receives identifies the check that failed. */
  lemma {:induction false} MessageTextInjective(m1: Message, m2: Message)
    ensures MessageText(m1) == MessageText(m2) ==> m1 == m2
  {
    MessageOfText(m1);
    MessageOfText(m2);
  }

  datatype ValidationError = ValidationError(message: Message)

  /** A validated value, or the `ValidationError` the source would throw. */
  datatype Result<+T> = Ok(value: T) | Err(error: ValidationError) {
    predicate IsFailure() {
      Err?
    }

    function PropagateFailure<U>(): Result<U>
      requires Err?
    {
      Err(error)
    }

    function Extract(): T
      requires Ok?
    {
      value
    }
  }

  // ---------------------------------------------------------------------
  // Field rules, stated without JavaScript's truthiness or `typeof`.
  // ---------------------------------------------------------------------

  /** A present, non-empty string (before any trimming). */
  predicate NonEmptyString(p: Option<Value>) {
    p.Some? && p.value.String? && p.value.s != ""
  }

  /** A present string that is not blank once trimmed. */
  predicate NonBlankString(p: Option<Value>) {
    p.Some? && p.value.String? && Trim(p.value.s) != ""
  }

  predicate NonNegativeNumber(p: Option<Value>) {
    p.Some? && p.value.Number? && p.value.n >= 0.0
  }

  predicate CategoryString(p: Option<Value>) {
    p.Some? && p.value.String? && IsCategory(p.value.s)
  }

  predicate OptionalBoolean(p: Option<Value>) {
    p.None? || p.value.Bool?
  }

  /** The body a create accepts. */
  predicate CreateBodyOk(data: Value) {
    && Truthy(data)
    && NonEmptyString(Get(data, "name"))
    && NonEmptyString(Get(data, "description"))
    && NonNegativeNumber(Get(data, "price"))
    && CategoryString(Get(data, "category"))
    && OptionalBoolean(Get(data, "available"))
  }

  /** Every recognised field the body supplies meets its rule. */
  predicate UpdateFieldsOk(data: Value)
    requires !data.Null?
  {
    && (Get(data, "name").Some? ==> NonBlankString(Get(data, "name")))
    && (Get(data, "description").Some? ==> NonBlankString(Get(data, "description")))
    && (Get(data, "price").Some? ==> NonNegativeNumber(Get(data, "price")))
    && (Get(data, "category").Some? ==> CategoryString(Get(data, "category")))
    && OptionalBoolean(Get(data, "available"))
  }

  /** The body supplies none of the five recognised fields. */
  predicate NoRecognisedField(data: Value)
    requires !data.Null?
  {
    && Get(data, "name").None? && Get(data, "description").None? && Get(data, "price").None?
    && Get(data, "category").None? && Get(data, "available").None?
  }

  /** What the validators guarantee of a create request. The name and the
      description are trimmed but may be empty. */
  predicate ValidCreateRequest(req: CreateProductRequest) {
    && IsTrimmed(req.name) && IsTrimmed(req.description)
    && req.price >= 0.0 && IsCategory(req.category)
  }

  /** What the validators guarantee of an update request. */
  predicate ValidUpdateRequest(u: UpdateProductRequest) {
    && (u.name.Some? ==> u.name.value != "" && IsTrimmed(u.name.value))
    && (u.description.Some? ==> u.description.value != "" && IsTrimmed(u.description.value))
    && (u.price.Some? ==> u.price.value >= 0.0)
    && (u.category.Some? ==> IsCategory(u.category.value))
  }

  /** A present string whose trimmed text is `t`. */
  predicate TrimsTo(p: Option<Value>, t: string) {
    p.Some? && p.value.String? && Trim(p.value.s) == t
  }

  /** `req` carries the body's name and description trimmed, its price and
      category unchanged, and its `available` exactly when the body has one. */
  predicate CopiesBody(req: CreateProductRequest, data: Value)
    requires !data.Null?
  {
    && TrimsTo(Get(data, "name"), req.name) && TrimsTo(Get(data, "description"), req.description)
    && Get(data, "price") == Some(Number(req.price))
    && Get(data, "category") == Some(String(req.category))
    && (match req.available
        case None => Get(data, "available").None?
        case Some(b) => Get(data, "available") == Some(Bool(b)))
  }

  /** `u` holds exactly the recognised fields the body supplies: names and
      descriptions trimmed, the other values unchanged. */
  predicate UpdateCopiesBody(u: UpdateProductRequest, data: Value)
    requires !data.Null?
  {
    && (match u.name
        case None => Get(data, "name").None?
        case Some(t) => TrimsTo(Get(data, "name"), t))
    && (match u.description
        case None => Get(data, "description").None?
        case Some(t) => TrimsTo(Get(data, "description"), t))
    && (match u.price
        case None => Get(data, "price").None?
        case Some(x) => Get(data, "price") == Some(Number(x)))
    && (match u.category
        case None => Get(data, "category").None?
        case Some(c) => Get(data, "category") == Some(String(c)))
    && (match u.available
        case None => Get(data, "available").None?
        case Some(b) => Get(data, "available") == Some(Bool(b)))
  }

  /** Some recognised field is an explicit `null`. */
  predicate HasNullField(data: Value)
    requires !data.Null?
  {
    || Get(data, "name") == Some(Null) || Get(data, "description") == Some(Null)
    || Get(data, "price") == Some(Null) || Get(data, "category") == Some(Null)
    || Get(data, "available") == Some(Null)
  }

  // ---------------------------------------------------------------------
  // One check per field, each the JavaScript test the source writes.
  // ---------------------------------------------------------------------

  /** `if (!x || typeof x !== 'string') throw …`: a present, non-empty string. */
  function RequiredString(p: Option<Value>, message: Message): (r: Result<string>)
    ensures r.Ok? <==> NonEmptyString(p)
    ensures r.Ok? ==> p == Some(String(r.value))
    ensures r.Err? ==> r.error == ValidationError(message)
  {
    if !TruthyProp(p) || TypeOf(p) != "string" then Err(ValidationError(message)) else Ok(p.value.s)
  }

  /** `if (typeof x !== 'number' || x < 0) throw …`: zero is accepted. */
  function RequiredPrice(p: Option<Value>, message: Message): (r: Result<real>)
    ensures r.Ok? <==> NonNegativeNumber(p)
    ensures r.Ok? ==> p == Some(Number(r.value)) && r.value >= 0.0
    ensures r.Err? ==> r.error == ValidationError(message)
  {
    if TypeOf(p) != "number" || p.value.n < 0.0 then Err(ValidationError(message)) else Ok(p.value.n)
  }

  /** `if (!values.includes(x)) throw …`, with the message that lists every category. */
  function Member(category: string): (r: Result<string>)
    ensures r.Ok? <==> IsCategory(category)
    ensures r.Ok? ==> r.value == category
    ensures r.Err? ==> r.error == ValidationError(CategoryMembership)
  {
    if category !in CategoryValues then Err(ValidationError(CategoryMembership)) else Ok(category)
  }

  /** `if (x !== undefined && typeof x !== 'boolean') throw …`: an explicit
      `null` fails; an absent value stays absent. */
  function OptionalBool(p: Option<Value>): (r: Result<Option<bool>>)
    ensures r.Ok? <==> OptionalBoolean(p)
    ensures r.Ok? ==> (r.value.None? <==> p.None?) && (r.value.Some? ==> p == Some(Bool(r.value.value)))
    ensures r.Err? ==> r.error == ValidationError(AvailableBoolean)
  {
    if p.Some? && TypeOf(p) != "boolean" then Err(ValidationError(AvailableBoolean))
    else if p.Some? then Ok(Some(p.value.b))
    else Ok(None)
  }

  /** `if (x !== undefined) { if (typeof x !== 'string' || x.trim() === '') throw …; out = x.trim() }`. */
  function OptionalText(p: Option<Value>, message: Message): (r: Result<Option<string>>)
    ensures r.Ok? <==> (p.Some? ==> NonBlankString(p))
    ensures r.Ok? ==> (r.value.None? <==> p.None?)
    ensures r.Ok? && r.value.Some? ==> TrimsTo(p, r.value.value) && r.value.value != "" && IsTrimmed(r.value.value)
    ensures r.Err? ==> r.error == ValidationError(message)
  {
    if p.None? then Ok(None)
    else if TypeOf(p) != "string" || Trim(p.value.s) == "" then Err(ValidationError(message))
    else Ok(Some(Trim(p.value.s)))
  }

  /** `if (x !== undefined) { if (typeof x !== 'number' || x < 0) throw …; out = x }`. */
  function OptionalPrice(p: Option<Value>): (r: Result<Option<real>>)
    ensures r.Ok? <==> (p.Some? ==> NonNegativeNumber(p))
    ensures r.Ok? ==> (r.value.None? <==> p.None?) && (r.value.Some? ==> p == Some(Number(r.value.value)))
    ensures r.Err? ==> r.error == ValidationError(PricePositive)
  {
    if p.None? then Ok(None)
    else var x :- RequiredPrice(p, PricePositive); Ok(Some(x))
  }

  /** `if (x !== undefined) { if (typeof x !== 'string' || !values.includes(x)) throw …; out = x }`. */
  function OptionalCategory(p: Option<Value>): (r: Result<Option<string>>)
    ensures r.Ok? <==> (p.Some? ==> CategoryString(p))
    ensures r.Ok? ==> (r.value.None? <==> p.None?) && (r.value.Some? ==> p == Some(String(r.value.value)))
    ensures r.Err? ==> r.error == ValidationError(CategoryMembership)
  {
    if p.None? then Ok(None)
    else if TypeOf(p) != "string" then Err(ValidationError(CategoryMembership))
    else var c :- Member(p.value.s); Ok(Some(c))
  }

  // ---------------------------------------------------------------------
  // The validators, check by check in the order the source performs them.
  // ---------------------------------------------------------------------

  function ValidateCreateProductRequest(data: Value): (r: Result<CreateProductRequest>)
    ensures r.Ok? <==> CreateBodyOk(data)
    ensures r.Ok? ==> ValidCreateRequest(r.value)
    ensures r.Ok? ==> CopiesBody(r.value, data)
  {
    if !Truthy(data) then Err(ValidationError(BodyRequired))
    else
      var name :- RequiredString(Get(data, "name"), NameRequired);
      var description :- RequiredString(Get(data, "description"), DescriptionRequired);
      var price :- RequiredPrice(Get(data, "price"), PriceRequired);
      var category :- RequiredString(Get(data, "category"), CategoryRequired);
      var category :- Member(category);
      var available :- OptionalBool(Get(data, "available"));
      Ok(CreateProductRequest(Trim(name), Trim(description), price, category, available))
  }

  /** The first rule that fails decides the message. */
  lemma {:induction false} CreateErrorMessages(data: Value)
    ensures !Truthy(data) ==> ValidateCreateProductRequest(data) == Err(ValidationError(BodyRequired))
    ensures Truthy(data) && !NonEmptyString(Get(data, "name"))
            ==> ValidateCreateProductRequest(data) == Err(ValidationError(NameRequired))
    ensures Truthy(data) && NonEmptyString(Get(data, "name")) && !NonEmptyString(Get(data, "description"))
            ==> ValidateCreateProductRequest(data) == Err(ValidationError(DescriptionRequired))
    ensures && Truthy(data) && NonEmptyString(Get(data, "name")) && NonEmptyString(Get(data, "description"))
            && !NonNegativeNumber(Get(data, "price"))
            ==> ValidateCreateProductRequest(data) == Err(ValidationError(PriceRequired))
    ensures && Truthy(data) && NonEmptyString(Get(data, "name")) && NonEmptyString(Get(data, "description"))
            && NonNegativeNumber(Get(data, "price")) && !NonEmptyString(Get(data, "category"))
            ==> ValidateCreateProductRequest(data) == Err(ValidationError(CategoryRequired))
    ensures && Truthy(data) && NonEmptyString(Get(data, "name")) && NonEmptyString(Get(data, "description"))
            && NonNegativeNumber(Get(data, "price")) && NonEmptyString(Get(data, "category"))
            && !IsCategory(Get(data, "category").value.s)
            ==> ValidateCreateProductRequest(data) == Err(ValidationError(CategoryMembership))
    ensures && Truthy(data) && NonEmptyString(Get(data, "name")) && NonEmptyString(Get(data, "description"))
            && NonNegativeNumber(Get(data, "price")) && CategoryString(Get(data, "category"))
            && !OptionalBoolean(Get(data, "available"))
            ==> ValidateCreateProductRequest(data) == Err(ValidationError(AvailableBoolean))
  {
  }

  function ValidateUpdateProductRequest(data: Value): (r: Result<UpdateProductRequest>)
    ensures r.Ok? <==> Truthy(data) && HasKeys(data) && UpdateFieldsOk(data)
    ensures r.Ok? ==> ValidUpdateRequest(r.value) && UpdateCopiesBody(r.value, data)
  {
    if !Truthy(data) || !HasKeys(data) then Err(ValidationError(FieldRequired))
    else
      var name :- OptionalText(Get(data, "name"), NameNonEmpty);
      var description :- OptionalText(Get(data, "description"), DescriptionNonEmpty);
      var price :- OptionalPrice(Get(data, "price"));
      var category :- OptionalCategory(Get(data, "category"));
      var available :- OptionalBool(Get(data, "available"));
      Ok(UpdateProductRequest(name, description, price, category, available))
  }

  /** An explicit `null` in a recognised field is refused, not read as
      absent; a body with keys but no recognised field yields the empty request. */
  lemma {:induction false} UpdateNullAndUnknownKeys(data: Value)
    ensures !data.Null? && HasNullField(data) ==> ValidateUpdateProductRequest(data).Err?
    ensures Truthy(data) && HasKeys(data) && NoRecognisedField(data)
            ==> ValidateUpdateProductRequest(data) == Ok(EmptyUpdate)
  {
  }

  /** The first rule that fails decides the message. */
  lemma {:induction false} UpdateErrorMessages(data: Value)
    ensures !Truthy(data) || !HasKeys(data)
            ==> ValidateUpdateProductRequest(data) == Err(ValidationError(FieldRequired))
    ensures Truthy(data) && HasKeys(data) && Get(data, "name").Some? && !NonBlankString(Get(data, "name"))
            ==> ValidateUpdateProductRequest(data) == Err(ValidationError(NameNonEmpty))
    ensures && Truthy(data) && HasKeys(data) && (Get(data, "name").Some? ==> NonBlankString(Get(data, "name")))
            && Get(data, "description").Some? && !NonBlankString(Get(data, "description"))
            ==> ValidateUpdateProductRequest(data) == Err(ValidationError(DescriptionNonEmpty))
    ensures && Truthy(data) && HasKeys(data) && (Get(data, "name").Some? ==> NonBlankString(Get(data, "name")))
            && (Get(data, "description").Some? ==> NonBlankString(Get(data, "description")))
            && Get(data, "price").Some? && !NonNegativeNumber(Get(data, "price"))
            ==> ValidateUpdateProductRequest(data) == Err(ValidationError(PricePositive))
    ensures && Truthy(data) && HasKeys(data) && (Get(data, "name").Some? ==> NonBlankString(Get(data, "name")))
            && (Get(data, "description").Some? ==> NonBlankString(Get(data, "description"))) && (Get(data, "price").Some? ==> NonNegativeNumber(Get(data, "price")))
            && Get(data, "category").Some? && !CategoryString(Get(data, "category"))
            ==> ValidateUpdateProductRequest(data) == Err(ValidationError(CategoryMembership))
    ensures && Truthy(data) && HasKeys(data) && (Get(data, "name").Some? ==> NonBlankString(Get(data, "name")))
            && (Get(data, "description").Some? ==> NonBlankString(Get(data, "description"))) && (Get(data, "price").Some? ==> NonNegativeNumber(Get(data, "price")))
            && (Get(data, "category").Some? ==> CategoryString(Get(data, "category"))) && !OptionalBoolean(Get(data, "available"))
            ==> ValidateUpdateProductRequest(data) == Err(ValidationError(AvailableBoolean))
  {
  }

  /** `validateProductId`: the trimmed id, or an error when the id is
      missing, not a string, or blank. */
  function ValidateProductId(raw: Value): (r: Result<string>)
    ensures r.Ok? <==> raw.String? && !AllWhitespace(raw.s)
    ensures r.Ok? ==> r.value == Trim(raw.s) && r.value != "" && IsTrimmed(r.value)
    ensures r.Err? ==> r.error == ValidationError(IdRequired)
  {
    if !Truthy(raw) || TypeOf(Some(raw)) != "string" || Trim(raw.s) == "" then Err(ValidationError(IdRequired))
    else Ok(Trim(raw.s))
  }

  /** Validating an id that has already been validated returns it unchanged. */
  lemma {:induction false} ProductIdIdempotent(raw: Value)
    requires ValidateProductId(raw).Ok?
    ensures ValidateProductId(String(ValidateProductId(raw).value)) == ValidateProductId(raw)
  {
    TrimIdempotent(raw.s);
  }

  // ---------------------------------------------------------------------
  // Request bodies a client would send for a given request, and the
  // round trips through the validators.
  // ---------------------------------------------------------------------

  function CreateRequestBody(req: CreateProductRequest): Value {
    var required := map["name" := String(req.name), "description" := String(req.description),
                        "price" := Number(req.price), "category" := String(req.category)];
    Object(if req.available.Some? then required["available" := Bool(req.available.value)] else required)
  }

  /** The five field names an update request may carry. */
  const UpdateKeys: set<string> := {"name", "description", "price", "category", "available"}

  /** The JSON value of field `key` of `u`, if `u` supplies it. */
  function UpdateFieldValue(u: UpdateProductRequest, key: string): Option<Value> {
    if key == "name" then (if u.name.Some? then Some(String(u.name.value)) else None)
    else if key == "description" then (if u.description.Some? then Some(String(u.description.value)) else None)
    else if key == "price" then (if u.price.Some? then Some(Number(u.price.value)) else None)
    else if key == "category" then (if u.category.Some? then Some(String(u.category.value)) else None)
    else if key == "available" then (if u.available.Some? then Some(Bool(u.available.value)) else None)
    else None
  }

  /** The JSON object holding exactly the fields `u` supplies. */
  function UpdateRequestBody(u: UpdateProductRequest): (body: Value)
    ensures body.Object? && body.fields.Keys <= UpdateKeys
    ensures Get(body, "name") == (if u.name.Some? then Some(String(u.name.value)) else None)
    ensures Get(body, "description") == (if u.description.Some? then Some(String(u.description.value)) else None)
    ensures Get(body, "price") == (if u.price.Some? then Some(Number(u.price.value)) else None)
    ensures Get(body, "category") == (if u.category.Some? then Some(String(u.category.value)) else None)
    ensures Get(body, "available") == (if u.available.Some? then Some(Bool(u.available.value)) else None)
  {
    Object(map k | k in UpdateKeys && UpdateFieldValue(u, k).Some? :: UpdateFieldValue(u, k).value)
  }

  /** The body of an update request has a key exactly when the request supplies a field. */
  lemma {:induction false} UpdateRequestBodyKeys(u: UpdateProductRequest)
    ensures UpdateRequestBody(u).Object?
    ensures HasKeys(UpdateRequestBody(u)) <==> u != EmptyUpdate
  {
    var fields := UpdateRequestBody(u).fields;
    if u == EmptyUpdate {
      assert fields == map[];
    } else {
      var k := if u.name.Some? then "name" else if u.description.Some? then "description"
               else if u.price.Some? then "price" else if u.category.Some? then "category" else "available";
      assert k in fields;
    }
  }

  /** A valid create request with a non-empty name and description survives
      being sent and validated again. */
  lemma {:induction false} CreateRoundTrip(req: CreateProductRequest)
    requires ValidCreateRequest(req) && req.name != "" && req.description != ""
    ensures ValidateCreateProductRequest(CreateRequestBody(req)) == Ok(req)
  {
    var body := CreateRequestBody(req);
    assert Get(body, "name") == Some(String(req.name));
    assert Get(body, "description") == Some(String(req.description));
    assert Get(body, "price") == Some(Number(req.price));
    assert Get(body, "category") == Some(String(req.category));
    assert req.available.None? ==> Get(body, "available").None?;
    assert req.available.Some? ==> Get(body, "available") == Some(Bool(req.available.value));
    assert CreateBodyOk(body);
    var r := ValidateCreateProductRequest(body);
    TrimOfTrimmed(req.name);
    TrimOfTrimmed(req.description);
    assert r.value.name == req.name && r.value.description == req.description;
  }

  /** Every non-empty valid update request survives being sent and validated
      again; the empty one is refused because its body has no keys. */
  lemma {:induction false} UpdateRoundTrip(u: UpdateProductRequest)
    requires ValidUpdateRequest(u)
    ensures u != EmptyUpdate ==> ValidateUpdateProductRequest(UpdateRequestBody(u)) == Ok(u)
    ensures u == EmptyUpdate ==> ValidateUpdateProductRequest(UpdateRequestBody(u)) == Err(ValidationError(FieldRequired))
  {
    UpdateRequestBodyKeys(u);
    if u != EmptyUpdate {
      NonEmptyUpdateRoundTrip(u);
    }
  }

  lemma {:induction false} NonEmptyUpdateRoundTrip(u: UpdateProductRequest)
    requires ValidUpdateRequest(u) && u != EmptyUpdate
    ensures ValidateUpdateProductRequest(UpdateRequestBody(u)) == Ok(u)
  {
    var body := UpdateRequestBody(u);
    UpdateRequestBodyKeys(u);
    TextFieldRoundTrip(u.name, NameNonEmpty);
    TextFieldRoundTrip(u.description, DescriptionNonEmpty);
    PriceFieldRoundTrip(u.price);
    CategoryFieldRoundTrip(u.category);
    BoolFieldRoundTrip(u.available);
    UpdateFromFields(body, u);
  }

  /** A truthy body with keys whose five field checks yield the fields of `u` validates to `u`. */
  lemma {:induction false} UpdateFromFields(data: Value, u: UpdateProductRequest)
    requires Truthy(data) && HasKeys(data)
    requires OptionalText(Get(data, "name"), NameNonEmpty) == Ok(u.name)
    requires OptionalText(Get(data, "description"), DescriptionNonEmpty) == Ok(u.description)
    requires OptionalPrice(Get(data, "price")) == Ok(u.price)
    requires OptionalCategory(Get(data, "category")) == Ok(u.category)
    requires OptionalBool(Get(data, "available")) == Ok(u.available)
    ensures ValidateUpdateProductRequest(data) == Ok(u)
  {
  }

  /** A supplied name or description that is trimmed and non-empty passes as itself. */
  lemma {:induction false} TextFieldRoundTrip(v: Option<string>, message: Message)
    requires v.Some? ==> v.value != "" && IsTrimmed(v.value)
    ensures OptionalText(if v.Some? then Some(String(v.value)) else None, message) == Ok(v)
  {
    if v.Some? {
      TrimOfTrimmed(v.value);
    }
  }

  lemma {:induction false} PriceFieldRoundTrip(v: Option<real>)
    requires v.Some? ==> v.value >= 0.0
    ensures OptionalPrice(if v.Some? then Some(Number(v.value)) else None) == Ok(v)
  {
  }

  lemma {:induction false} CategoryFieldRoundTrip(v: Option<string>)
    requires v.Some? ==> IsCategory(v.value)
    ensures OptionalCategory(if v.Some? then Some(String(v.value)) else None) == Ok(v)
  {
  }

  lemma {:induction false} BoolFieldRoundTrip(v: Option<bool>)
    ensures OptionalBool(if v.Some? then Some(Bool(v.value)) else None) == Ok(v)
  {
  }

  /** Update validation is idempotent on its own non-empty results. */
  lemma {:induction false} UpdateRevalidates(data: Value)
    requires ValidateUpdateProductRequest(data).Ok?
    requires ValidateUpdateProductRequest(data).value != EmptyUpdate
    ensures ValidateUpdateProductRequest(UpdateRequestBody(ValidateUpdateProductRequest(data).value))
            == ValidateUpdateProductRequest(data)
  {
    UpdateRoundTrip(ValidateUpdateProductRequest(data).value);
  }

  /** Create tests the name for emptiness before trimming, update after: a
      whitespace-only name is accepted by create and stored as "", the same
      body is refused by update, and the created request does not validate again. */
  lemma {:induction false} BlankNameAcceptedOnlyByCreate(data: Value)
    requires CreateBodyOk(data)
    requires AllWhitespace(Get(data, "name").value.s)
    ensures ValidateCreateProductRequest(data).Ok?
    ensures ValidateCreateProductRequest(data).value.name == ""
    ensures ValidateUpdateProductRequest(data) == Err(ValidationError(NameNonEmpty))
    ensures ValidateCreateProductRequest(CreateRequestBody(ValidateCreateProductRequest(data).value))
            == Err(ValidationError(NameRequired))
  {
    var req := ValidateCreateProductRequest(data).value;
    assert req.name == "";
    BlankNameRefusedByUpdate(data);
    EmptyNameRefusedByCreate(req);
  }

  /** Create refuses a body whose name is the empty string. */
  lemma {:induction false} EmptyNameRefusedByCreate(req: CreateProductRequest)
    requires req.name == ""
    ensures ValidateCreateProductRequest(CreateRequestBody(req)) == Err(ValidationError(NameRequired))
  {
    assert Get(CreateRequestBody(req), "name") == Some(String(""));
  }

  /** Update refuses a present name that trims to nothing. */
  lemma {:induction false} BlankNameRefusedByUpdate(data: Value)
    requires data.Object? && "name" in data.fields
    requires data.fields["name"].String? && AllWhitespace(data.fields["name"].s)
    ensures ValidateUpdateProductRequest(data) == Err(ValidationError(NameNonEmpty))
  {
    assert HasKeys(data) && Truthy(data);
    assert OptionalText(Get(data, "name"), NameNonEmpty) == Err(ValidationError(NameNonEmpty));
  }
}

=== FILE: wrappers.dfy ===
/** The optional-value datatype shared by every module of the model.
    `None` stands for JavaScript's `undefined` / `null` "absent" results. */
module Wrappers {

  datatype Option<+T> = None | Some(value: T) {

    /** The value, or `default` when absent (JavaScript's `??`). */
    function GetOr(default: T): T {
      match this
      case Some(v) => v
      case None => default
    }
  }
}
